=== FILE: README.md ===
# AI engineering assessments: the decision logic of the chat and lead services

This project models, in Dafny, the deterministic part of two small web services.

- **Retrieval-augmented company chatbot.**
  - Ingestion tags loaded documents with the company and a source, and appends the split chunks to a vector index.
  - A chat turn takes the documents the retriever returned for a company.
  - It either short-circuits with the fixed refusal sentence, or computes four things:
    - a confidence (the best score, rounded to three places);
    - the context (the texts joined by blank lines);
    - the distinct sources;
    - an oldest-first history of the session's six newest messages.
  - It then fills the grounding prompt, strips the model's reply, and flags a refusal when the lower-cased answer contains "don't have information".
  - It appends the user and assistant rows to the chat table.
  - The chat endpoint merges a JSON body with query parameters, rejects a missing query with a 422, and draws a fresh session id when none is given.
- **Lead workflow.**
  - A classifier's intent is forced to "unknown" below confidence 0.7 (the double of that name).
  - An extracted email that is missing or empty is replaced by the leftmost match of `[\w.-]+@[\w.-]+` in the JSON-serialised lead.
  - A processed lead row and a response carrying the request id are built.
  - Any failure is reported as a database error (500, `DB_ERROR`).
- **Schemas and errors.** These cover the role, intent and status enums, the email validator, the field defaults, and the exception table of statuses and codes.

The vector search, embeddings, text splitter, language model and database are not modelled. They appear as inputs:
- the retrieved documents;
- a splitting function;
- the model's reply text or a raised failure;
- the chat table as a sequence of rows;
- commit and refresh outcomes;
- clock readings and fresh ids.

Modules, one per source file or concern:

| module | file | models |
|---|---|---|
| `Wrappers` | wrappers.dfy | `Option`, `Result`, `Outcome` (a step that passes or raises) |
| `Ids` | ids.dfy | the `UUID` type shared by chat rows, sessions and leads |
| `Text` | text.dfy | `sep.join`, substring `in`, `str.lower` (ASCII), `str.strip`, `list(set(...))` |
| `AppErrors` | app_errors.dfy | core/exceptions.py and the application's exception handler |
| `RagSchemas` | rag_schemas.dfy | assessments/rag_chatbot/schemas.py |
| `ChatHistory` | chat_history.dfy | the history query and rendering in assessments/rag_chatbot/services.py |
| `RagService` | rag_service.dfy | assessments/rag_chatbot/services.py |
| `RagRouters` | rag_routers.dfy | assessments/rag_chatbot/routers.py |
| `WorkflowSchemas` | workflow_schemas.dfy | assessments/workflow_automation/schemas.py |
| `EmailPattern` | email_pattern.dfy | the `re.search` email fallback |
| `WorkflowService` | workflow_service.dfy | assessments/workflow_automation/services.py |

How the model represents the data:
- Scores and confidences are exact `real`s. A classifier confidence is the exact value of the double it parses to. The threshold `WorkflowService.IntentThreshold` is the exact value of the double written `0.7` in the source: 0.6999999999999999555910790149937383830547332763671875. So the test `confidence < 0.7` decides on these reals as it does on the doubles.
- UUIDs are natural numbers.
- Strings are sequences of code points.
- `RagService.RefusalSentence` is assembled from the refusal marker, so the two cannot drift apart. Its value is "I don't have information about that in our company documents."

## Model

| member | source | states |
|---|---|---|
| `AppErrors.StatusCode` | core/exceptions.py:3-17 | 400 exactly for a validation error, 502 exactly for a model error, 500 exactly for the base and database errors |
| `AppErrors.Code` | core/exceptions.py:3-17 | each kind's code reads back to that kind, so codes tell all four kinds apart, even the two that share status 500 |
| `AppErrors.CodesIdentifyKinds` | core/exceptions.py:3-17 | equal codes mean equal kinds, and a code that names a kind is that kind's code |
| `AppErrors.Envelope` | backend/main.py:20-22 | the error body carries the kind's status and code and the exception text as detail |
| `RagSchemas.ParseRole` | assessments/rag_chatbot/schemas.py:15-17 | only "user" and "assistant" are roles, and each reads back to its value |
| `RagSchemas.RoleRoundTrip` | assessments/rag_chatbot/schemas.py:15-17 | each of the two roles reads back from its value, and the two values differ |
| `RagSchemas.NewChatMessage` | assessments/rag_chatbot/schemas.py:19-27 | an omitted confidence is None, a given one is kept, and the other fields are stored as passed |
| `RagSchemas.MakeChatRequest` | assessments/rag_chatbot/schemas.py:36-39 | the request is rejected exactly when the query is missing; company_id defaults to "acme-corp" and session_id to None |
| `Text.Join` | assessments/rag_chatbot/services.py:72 | joining nothing gives "" and joining one piece gives that piece |
| `Text.JoinPiece` | assessments/rag_chatbot/services.py:72 | the i-th piece sits at its offset in the joined string |
| `Text.JoinSeparator` | assessments/rag_chatbot/services.py:72 | the separator sits between neighbouring pieces, and offsets advance by one piece plus one separator |
| `Text.JoinLength` | assessments/rag_chatbot/services.py:72 | the joined length is the pieces' lengths plus one separator between each pair of neighbours |
| `Text.Contains` | assessments/rag_chatbot/services.py:102 | the substring test holds exactly when the pattern occurs at some index |
| `Text.Lower` | assessments/rag_chatbot/services.py:102 | the length is kept and each character is lower-cased on its own |
| `Text.LowerNormalises` | assessments/rag_chatbot/services.py:102 | no capital survives, non-capitals are untouched, and lower-casing twice changes nothing more |
| `Text.Strip` | assessments/rag_chatbot/services.py:90 | the result is the input minus whitespace padding at both ends, and it neither starts nor ends with whitespace |
| `Text.Dedup` | assessments/rag_chatbot/services.py:73 | the result has no duplicates and has exactly the input's elements |
| `ChatHistory.SessionRows` | assessments/rag_chatbot/services.py:77-78 | the rows are exactly the stored rows with the session id, each as many times as it is stored, and no row is invented |
| `ChatHistory.Insert` | assessments/rag_chatbot/services.py:78 | inserting keeps a newest-first order and adds exactly the new row |
| `ChatHistory.SortNewestFirst` | assessments/rag_chatbot/services.py:78 | the rows are ordered newest first and are a permutation of the input |
| `ChatHistory.Reverse` | assessments/rag_chatbot/services.py:80 | element i is element n-1-i of the input, and the rows are a permutation of it |
| `ChatHistory.ReverseOrder` | assessments/rag_chatbot/services.py:78-80 | reversing a newest-first list gives an oldest-first list |
| `ChatHistory.NewestSelection` | assessments/rag_chatbot/services.py:78 | the limited rows come from the input, and no row left out is newer than any row kept |
| `ChatHistory.Window` | assessments/rag_chatbot/services.py:77-80 | the window is ordered oldest first and holds min(6, n) input rows; no row left out is newer than any row in it |
| `ChatHistory.WindowFrom` | assessments/rag_chatbot/services.py:78-80 | every row of a window is one of the rows it was taken from |
| `ChatHistory.SessionWindow` | assessments/rag_chatbot/services.py:77-80 | the history as written: oldest first, min(6, n) of the session's n stored rows, all of that session (of any company) and together a sub-multiset of its rows, and no session row left out is newer than a row kept |
| `ChatHistory.TenantWindow` | assessments/rag_chatbot/services.py:77-80 | corrected history: oldest first, min(6, n) of the n stored rows of the session and the company, all of both and together a sub-multiset of them, and no such row left out is newer than a row kept |
| `ChatHistory.SessionWindowCrossesTenants` | assessments/rag_chatbot/services.py:77-79 | as written, a reused session id puts another company's message into the window: the window over one "globex" row of session 7 is that row |
| `ChatHistory.SingleRowWindow` | assessments/rag_chatbot/services.py:77-80 | a one-row table is its own window |
| `ChatHistory.SessionWindowRows` | assessments/rag_chatbot/services.py:77-79 | every row of the window as written is a stored row of the session |
| `ChatHistory.TenantWindowEmpty` | assessments/rag_chatbot/services.py:77-79 | a company without rows in the session gets an empty corrected window |
| `ChatHistory.TenantSessionRows` | assessments/rag_chatbot/services.py:77-78 | corrected selection: exactly the stored rows of the session that belong to the company, each as many times as it is stored |
| `ChatHistory.TenantWindowIsolated` | assessments/rag_chatbot/services.py:77-79 | every row in the corrected window is a stored row of the requested session and company |
| `ChatHistory.WindowsAgreeWithinOneTenant` | assessments/rag_chatbot/services.py:77-79 | when only one company used the session, the corrected window equals the window as written |
| `ChatHistory.Lines` | assessments/rag_chatbot/services.py:81 | there is one `role: content` line per message, in window order |
| `ChatHistory.JoinedLinesStart` | assessments/rag_chatbot/services.py:81 | the joined lines of a non-empty window start with the first message's line and are never empty |
| `ChatHistory.Render` | assessments/rag_chatbot/services.py:81-83 | an empty window renders as "No previous messages."; a non-empty one starts with its oldest message's `role: content` line |
| `ChatHistory.RenderPlaceholderIff` | assessments/rag_chatbot/services.py:81-83 | the placeholder "No previous messages." appears exactly when the window is empty |
| `ChatHistory.RenderShowsMessage` | assessments/rag_chatbot/services.py:81-83 | the i-th line of the rendered history is the i-th message of the window |
| `ChatHistory.RenderSingle` | assessments/rag_chatbot/services.py:81-83 | a one-message window renders as that message's line, which shows the message's content |
| `RagService.Tag` | assessments/rag_chatbot/services.py:46-48 | a tagged document carries the ingesting company and its own source, or "unknown"; its text and score are kept |
| `RagService.TagKeepsSource` | assessments/rag_chatbot/services.py:48 | a present source survives tagging, and tagging twice changes nothing more |
| `RagService.SplitDocument` | assessments/rag_chatbot/services.py:50 | there is one chunk per piece the splitter cuts, and each chunk carries its document's metadata |
| `RagService.SplitDocuments` | assessments/rag_chatbot/services.py:50 | the number of chunks is the total piece count, and every chunk carries some document's metadata |
| `RagService.TagAll` | assessments/rag_chatbot/services.py:46-48 | every loaded document is tagged, in order |
| `RagService.Ingest` | assessments/rag_chatbot/services.py:46-55 | chunks are appended after the existing index; the count returned is the number appended; every new chunk carries the company and a loaded document's source |
| `RagService.IngestCountsChunks` | assessments/rag_chatbot/services.py:50-55 | the count returned is the number of pieces the splitter cut from the tagged documents |
| `RagService.NearestInteger` | assessments/rag_chatbot/services.py:67 | a neighbour of y that is at most one half away is the nearest integer to y |
| `RagService.RoundHalfEven` | assessments/rag_chatbot/services.py:67 | the result is the nearest integer, at most one half away, and even on a tie |
| `RagService.Round3` | assessments/rag_chatbot/services.py:67 | the result is a whole number of thousandths, the round-half-even of 1000x, and within 0.0005 of x |
| `RagService.Round3Facts` | assessments/rag_chatbot/services.py:67 | rounding keeps 0 and the unit interval, and a rounded value rounds to itself |
| `RagService.MaxScore` | assessments/rag_chatbot/services.py:66 | the result is some document's score (0 when it has none) and no document's score exceeds it |
| `RagService.Confidence` | assessments/rag_chatbot/services.py:66-67 | the confidence is 0 for no documents, and otherwise the best score rounded to three places, so within 0.0005 of it |
| `RagService.ConfidenceBounds` | assessments/rag_chatbot/services.py:66-67 | with no score anywhere the confidence is 0; with all scores in [0, 1] so is the confidence |
| `RagService.Contents` | assessments/rag_chatbot/services.py:72 | there is one text per document, in retrieval order |
| `Text.JoinContains` | assessments/rag_chatbot/services.py:72 | every piece occurs in the joined string |
| `RagService.Context` | assessments/rag_chatbot/services.py:72 | no documents give an empty context, one document gives its own text, and every document's text occurs in the context |
| `RagService.ContextInRetrievalOrder` | assessments/rag_chatbot/services.py:72 | each document's text sits at its offset in the context, one blank line after the previous text |
| `RagService.SourceList` | assessments/rag_chatbot/services.py:73 | there is one source per document, "unknown" when the key is absent |
| `RagService.Sources` | assessments/rag_chatbot/services.py:73 | the sources have no duplicates and are exactly the documents' sources, with "unknown" substituted |
| `Text.ContainsMiddle` | assessments/rag_chatbot/services.py:83 | a string occurs in any text that embeds it |
| `Text.ContainsTransitive` | assessments/rag_chatbot/services.py:83 | a string found inside a substring of a text is found in the text |
| `RagService.Prompt` | assessments/rag_chatbot/services.py:22-31 | the filled prompt opens with the fixed opening followed by the company name, and ends with the history heading followed by the history |
| `RagService.PromptCarriesParts` | assessments/rag_chatbot/services.py:22-31 | the system prompt names the company, quotes the refusal sentence verbatim, and embeds the context and the history |
| `RagService.IsRefusal` | assessments/rag_chatbot/services.py:102 | an answer is a refusal exactly when "don't have information" starts at some index of it, ignoring the case of ASCII letters |
| `RagService.MarkerHasNoCapitals` | assessments/rag_chatbot/services.py:102 | the refusal marker has no capital letters, so lower-casing leaves it as it is |
| `RagService.RefusalSentenceDetected` | assessments/rag_chatbot/services.py:25 | the detector flags the refusal sentence, alone or surrounded by any text |
| `RagService.Turn` | assessments/rag_chatbot/services.py:65-103 | the turn over a given history window. With no documents: the fixed refusal, no model call and no rows. Otherwise: the stripped model output as the answer; the rounded best score as confidence; the documents' distinct sources; the prompt filled with the context and that window rendered; then the user row (no confidence) and the assistant row (with the confidence) appended for the session and company. Always: the refusal flag is the detector on the answer, and the sources have no duplicates and each comes from a document of the requested company |
| `RagService.Chat` | assessments/rag_chatbot/services.py:58-103 | the turn as written, with the history read by session id alone. With no documents: the fixed refusal, no model call and no rows. Otherwise: the answer is the stripped model output; the confidence is the best score rounded to three places; the sources are exactly the documents' distinct sources; the model gets the prompt filled with the context and the rendered session window, and the query as its human message; the user row (no confidence) then the assistant row (with the confidence) are appended, both tagged with the session and the company. Always: the refusal flag holds exactly when the detector fires on the answer, and every source comes from a document of the requested company |
| `RagService.ChatShortCircuitIgnoresStoreAndModel` | assessments/rag_chatbot/services.py:69-70 | with nothing retrieved, the turn is the same whatever the chat table and the model reply; the response is the refusal with confidence 0 |
| `RagService.ChatPromptGrounded` | assessments/rag_chatbot/services.py:76-88 | the prompt of the turn as written carries the refusal sentence, the context and the rendered session window; every row of that window is a stored row of the session, of whichever company |
| `RagService.ChatScoped` | assessments/rag_chatbot/services.py:58-103 | corrected turn: everything `RagService.Chat` promises, with the history read from the requesting company's rows of the session; every row of that window belongs to the session and the company |
| `RagService.ChatScopedIsolated` | assessments/rag_chatbot/services.py:76-88 | the corrected turn's prompt carries the refusal sentence, the context and a history drawn only from the requesting company's rows of the session |
| `RagService.ChatLeaksOtherTenant` | assessments/rag_chatbot/services.py:77-88 | as written, when "acme-corp" chats in session 7 after "globex" wrote "our launch date is secret" there, the prompt contains globex's history line |
| `RagService.ChatScopedHidesOtherTenant` | assessments/rag_chatbot/services.py:77-88 | on that same input the corrected turn's prompt shows "No previous messages." as its history |
| `RagRouters.IngestEndpoint` | assessments/rag_chatbot/routers.py:8-11 | the status is "success"; the company echoes the parameter (default "acme-corp"); the count is the number of chunks appended; every new chunk carries that company |
| `RagRouters.RouteChat` | assessments/rag_chatbot/routers.py:16-37 | a body supplies query, company and session; the 422 "Field required" error comes exactly for a falsy query; a missing session gets the fresh id, and a given one passes unchanged |
| `RagRouters.BodyOverridesParams` | assessments/rag_chatbot/routers.py:23-26 | a body without a session id discards the query parameter's session id |
| `RagRouters.ChatEndpoint` | assessments/rag_chatbot/routers.py:28-37 | a rejected request never reaches the pipeline; an accepted one is a single chat turn, as written, with the merged arguments |
| `WorkflowSchemas.ValidateEmail` | assessments/workflow_automation/schemas.py:15-20 | the validator rejects exactly a non-empty value without '@'; it passes None, "" and anything with '@' unchanged |
| `WorkflowSchemas.Dump` | assessments/workflow_automation/schemas.py:7-13 | the dump has exactly the six field keys |
| `WorkflowSchemas.Load` | assessments/workflow_automation/schemas.py:7-20 | loading fails when a field key holds the wrong JSON kind; otherwise it succeeds exactly when the validator accepts the email; each field is the string or number under its key, and None when the key is absent or null |
| `WorkflowSchemas.DumpLoadRoundTrip` | assessments/workflow_automation/schemas.py:7-20 | dumping then loading gives back the same fields exactly when the email is acceptable |
| `WorkflowSchemas.FieldsDefaultToNone` | assessments/workflow_automation/schemas.py:8-13 | any object without the field keys, whatever other keys it has, loads as all six fields None; a missing key reads as None whatever the other keys hold |
| `WorkflowSchemas.ParseIntent` | assessments/workflow_automation/schemas.py:22-24 | a parsed intent's label is the input string |
| `WorkflowSchemas.IntentRoundTrip` | assessments/workflow_automation/schemas.py:23 | the intents are exactly sales, support, partnership and unknown, and each reads back from its label |
| `WorkflowSchemas.ParseStatus` | assessments/workflow_automation/schemas.py:34 | a parsed status's label is the input string |
| `WorkflowSchemas.StatusRoundTrip` | assessments/workflow_automation/schemas.py:34 | the statuses are exactly processed, fallback and failed, and each reads back from its label |
| `WorkflowSchemas.NewWorkflowLead` | assessments/workflow_automation/schemas.py:26-36 | an omitted status is "processed" and an omitted ai_response is None; given values are kept |
| `EmailPattern.RunEnd` | assessments/workflow_automation/services.py:46 | the run starting at i is all class characters and ends at the end of the text or on a non-class character |
| `EmailPattern.RunEndUnique` | assessments/workflow_automation/services.py:46 | a class run ending on a non-class character ends where `RunEnd` says |
| `EmailPattern.SplitIsRunEnd` | assessments/workflow_automation/services.py:46 | in any match starting at i, the '@' is where the run from i ends |
| `EmailPattern.NoMatchAt` | assessments/workflow_automation/services.py:46 | when the local test fails at i, no match starts at i |
| `EmailPattern.MatchFoundAt` | assessments/workflow_automation/services.py:46 | when the local test succeeds at i, the pattern matches up to the end of the second run and no further |
| `EmailPattern.MatchEnd` | assessments/workflow_automation/services.py:46 | every match from i passes the first '@' and ends no later than the class run after it |
| `EmailPattern.SearchFrom` | assessments/workflow_automation/services.py:46 | no result means no match anywhere; a result is the leftmost start and, there, the longest match |
| `EmailPattern.Search` | assessments/workflow_automation/services.py:46 | there is no result exactly when the pattern matches nowhere; otherwise the result is the leftmost-longest match |
| `EmailPattern.MatchShape` | assessments/workflow_automation/services.py:46 | a reported match is non-empty, splits at one '@' with non-empty runs on both sides, and is bordered by non-class characters |
| `WorkflowService.ApplyThreshold` | assessments/workflow_automation/services.py:36-37 | below the threshold (the double written 0.7) the intent is unknown, otherwise the label is kept; the confidence is never changed |
| `WorkflowService.SevenTenthsKeepsLabel` | assessments/workflow_automation/services.py:36-37 | the threshold is the double 3152519739159347 / 2^52 written 0.7; a confidence equal to it, or at least 0.7, keeps its label |
| `WorkflowService.ParseClassification` | assessments/workflow_automation/services.py:32-34 | the output parses exactly when the label is one of the four intents; the confidence is kept |
| `WorkflowService.FallbackEmail` | assessments/workflow_automation/services.py:44-48 | only the email changes; a truthy email is kept; a falsy one becomes the regex match, or stays as it was when nothing matches |
| `WorkflowService.FallbackEmailShape` | assessments/workflow_automation/services.py:46-48 | a replaced email is the leftmost-longest match, contains one '@' between non-empty runs, has maximal runs, and passes the email validator |
| `WorkflowService.FallbackKeepsEmailAccepted` | assessments/workflow_automation/services.py:44-48 | the fallback never turns an acceptable email into an unacceptable one |
| `WorkflowService.LeadRecord` | assessments/workflow_automation/services.py:58-66 | the record has status processed, the thresholded intent, the classifier's own confidence, the dumped fields, the request id and the reply |
| `WorkflowService.LeadResponse` | assessments/workflow_automation/services.py:73-81 | the response's id, confidence, reply (None shown as ""), fields and execution trace come from the stored lead, and its intent and status labels read back to the lead's intent and status |
| `WorkflowService.ProcessLead` | assessments/workflow_automation/services.py:25-86 | every error is the database error "Failed to process lead"; at most one lead is committed, and one is exactly when both model calls succeed, both outputs parse, the reply succeeds and the commit succeeds; a failed commit leaves nothing committed; an error together with a committed lead happens only when the refresh after a good commit fails; on success one processed lead is committed, and its request id, id, intent, confidence, reply (None shown as "") and fields agree with the response and its execution trace |
| `WorkflowService.ProcessLeadSucceedsIff` | assessments/workflow_automation/services.py:29-81 | a run succeeds exactly when every collaborator succeeds and both outputs parse; the returned fields are the extraction with the fallback applied, the intent is thresholded, and the confidence is the classifier's |
| `WorkflowService.LowConfidenceIsUnknown` | assessments/workflow_automation/services.py:36-61 | below 0.7 the stored and returned intent is unknown, whatever the label |
| `WorkflowService.FailuresAreDatabaseErrors` | assessments/workflow_automation/services.py:83-86 | every failure, model failures included, reaches the caller as 500 with code DB_ERROR |

## Findings

| source | as written | input that shows it | evidently intended | confidence | as-written member | corrected member |
|---|---|---|---|---|---|---|
| assessments/rag_chatbot/services.py:77-79 | the history query selects chat rows by `session_id` only, although every row stores its `company_id` | the table holds a "globex" row in session 7, and "acme-corp" then chats in session 7 | the prompt's history holds only the requesting company's rows of the session (tenant isolation) | medium; not executed | `RagService.ChatLeaksOtherTenant` | `RagService.ChatScopedIsolated` |

`RagService.Chat` models the turn as written, and the chat endpoint calls it. `RagService.ChatScoped` is the corrected turn: the same turn over the company-scoped window (`ChatHistory.TenantWindow`). Both are `RagService.Turn` applied to a different history window. `RagService.ChatScopedHidesOtherTenant` shows the corrected turn on the input above. `ChatHistory.WindowsAgreeWithinOneTenant` shows that the two windows coincide whenever one company owns the session.

## Behaviour of the code worth knowing

- **History is not filtered by company.** The history query selects rows by session only; see Findings.
- **Confidence is not clamped.** The confidence is the largest score the documents carry, rounded. It lies in [0, 1] only when the scores do (`RagService.ConfidenceBounds`).
- **A failed refresh leaves the lead committed.** The code commits the lead before it refreshes it and builds the response. A refresh failure therefore reports `DatabaseError` while the lead stays committed. `WorkflowService.ProcessLead` states that this is the only such case.
- **Model failures become database errors.** A model failure during lead processing reaches the caller as `DatabaseError`, not as `LLMError`, because the handler wraps every exception.
- **Ingestion adds only what was loaded.** In the model, every appended chunk comes from a loaded document (`RagService.Ingest`), so ingesting no documents appends nothing and returns 0. The code itself may behave differently on an empty batch, because the vector-store calls can fail there (see Left out).

## Left out

- Vector search (FAISS similarity with score threshold 0.45, k = 6, the company filter): library I/O. The retrieved documents are an input. The `RagService.RetrievedFor` precondition states the limit of `RagService.TopK` documents and the company filter.
- Embeddings, the lazily created index handle and index persistence: library and file-system I/O.
- Ingest failures: `add_documents` and `save` can raise, for example on an empty batch of chunks. The model's `RagService.Ingest` always succeeds and appends the chunks to the index.
- Text splitting (chunk size 800, overlap 120): library behaviour. It is a function parameter of `RagService.Ingest`.
- Directory loading and the loader choice (PDF loader when the path ends in ".pdf"): file-system I/O. The loaded documents are an input.
- Language-model calls: network I/O. Their outputs (reply text, classifier label and confidence, extraction object) or failures are inputs.
- The retry policy of structured calls (3 attempts, exponential backoff) and output parsing: library behaviour. A call that still fails is an `Err` input.
- The reply prompt for leads (`Intent: ...` plus the JSON of the fields): the reply is an input, so the prompt that produced it is not modelled.
- Chat failures: the chat turn does not model exceptions raised by the retriever, the model or the chat-table commit. They propagate unhandled in the code.
- `json.dumps` of the raw lead: the serialised text is an input (`RawLead.serialised`), assumed ASCII as `ensure_ascii` makes it.
- EmailPattern.Search: requires ASCII text. There `\w` is `[A-Za-z0-9_]`; Unicode word characters are not modelled.
- Row primary keys, `request_id` generation and creation timestamps: randomness and clocks, passed in as parameters.
- Logging (structlog): no observable effect on results.
- Text.Lower: lower-cases ASCII capitals only. Python's full Unicode case mapping is not modelled.
- ChatHistory.Lines: renders a role by its value ("user"). Some Python versions format a `str`-mixin enum as "ChatRole.user".
- RagService.Round3: rounds the exact real value half-to-even. Python rounds the binary double and then re-rounds to the nearest double.
- RagService.Sources: fixes first-occurrence order. Python's `list(set(...))` order is unspecified, so the contract promises only membership and no duplicates.
- ChatHistory.Window: rows with equal creation times are taken in an order the model fixes. The database leaves that order unspecified, so the contract does not promise it.
- WorkflowSchemas.Load: accepts only JSON strings or null for text fields, and numbers or null for `budget`. Pydantic's lax coercions, such as a numeric string for `budget`, are not modelled.
- Framework body validation: a malformed body is rejected by the framework before the chat endpoint runs (its own 422). `RagSchemas.MakeChatRequest` reports only the missing field's name.
- Missing imports: the code has missing imports of `ChatMessage`, `UUID`, `structlog`, `SystemMessage` and `HumanMessage`. The model follows the evident intended behaviour, not the resulting name errors.
- Concurrency and async scheduling: each request is modelled as one sequential run.
- Older assessment variants, the UI, app wiring, configuration, scripts and ORM-only tables: no decision logic of the modelled services.

=== FILE: app_errors.dfy ===
/** The application's exception hierarchy: every error kind carries a fixed
    HTTP status and a stable machine-readable code, and the application's
    exception handler turns a raised error into a `{code, detail}` body. */
module AppErrors {
  import opened Wrappers

  /** `AppBaseException` and its three subclasses. */
  datatype ErrorKind = Internal | Llm | Validation | Database

  /** A raised application exception; `message` is what `str(exc)` shows. */
  datatype AppError = AppError(kind: ErrorKind, message: string)

  /** The HTTP status each kind is answered with. Only a validation error is
      the client's fault; a model failure is a bad gateway; the rest are
      internal. */
  function StatusCode(k: ErrorKind): (r: int)
    ensures r == 400 <==> k == Validation
    ensures r == 502 <==> k == Llm
    ensures r == 500 <==> k == Internal || k == Database
  {
    match k
    case Internal => 500
    case Llm => 502
    case Validation => 400
    case Database => 500
  }

  /** The machine-readable code each kind reports. */
  function Code(k: ErrorKind): (r: string)
    ensures KindOfCode(r) == Some(k)
  {
    match k
    case Internal => "INTERNAL_ERROR"
    case Llm => "LLM_ERROR"
    case Validation => "VALIDATION_ERROR"
    case Database => "DB_ERROR"
  }

  /** Reads a code back to the kind that reports it. */
  function KindOfCode(code: string): (r: Option<ErrorKind>)
  {
    if code == "INTERNAL_ERROR" then Some(Internal)
    else if code == "LLM_ERROR" then Some(Llm)
    else if code == "VALIDATION_ERROR" then Some(Validation)
    else if code == "DB_ERROR" then Some(Database)
    else None
  }

  /** Codes tell the kinds apart, even the two that share status 500; and
      a code that names a kind is that kind's code. */
  lemma CodesIdentifyKinds(a: ErrorKind, b: ErrorKind, code: string)
    ensures Code(a) == Code(b) ==> a == b
    ensures KindOfCode(code) == Some(a) ==> Code(a) == code
  {
    assert KindOfCode(Code(a)) == Some(a);
  }

  /** The JSON error body the handler sends. */
  datatype ErrorEnvelope = ErrorEnvelope(status: int, code: string, detail: string)

  /** The application exception handler: the envelope's status and code are
      the kind's, its detail is the exception text, and the kind can be read
      back from the envelope. */
  function Envelope(e: AppError): (r: ErrorEnvelope)
    ensures r.status == StatusCode(e.kind)
    ensures KindOfCode(r.code) == Some(e.kind)
    ensures r.detail == e.message
  {
    ErrorEnvelope(StatusCode(e.kind), Code(e.kind), e.message)
  }
}

=== FILE: chat_history.dfy ===
/** The chat memory of the answer pipeline: the stored rows of one session,
    newest first and limited to six, turned back to oldest first and
    rendered as `role: content` lines. */
module ChatHistory {
  import opened Wrappers
  import opened Ids
  import opened RagSchemas
  import Text

  /** How many earlier messages the prompt sees. */
  const HistoryLimit: nat := 6

  /** What the prompt shows when there is no earlier message. */
  const NoHistory: string := "No previous messages."

  // ---------------------------------------------------------------------
  // Selecting rows

  /** The rows of one session, in table order: the query as written, which
      looks at the session id only. */
  function SessionRows(store: seq<ChatMessage>, sessionId: Uuid): (r: seq<ChatMessage>)
    ensures forall m :: m in r <==> m in store && m.sessionId == sessionId
    ensures multiset(r) <= multiset(store)
    ensures forall m :: multiset(r)[m] == if m.sessionId == sessionId then multiset(store)[m] else 0
  {
    if store == [] then []
    else
      var rest := SessionRows(store[..|store| - 1], sessionId);
      var last := store[|store| - 1];
      assert store == store[..|store| - 1] + [last];
      if last.sessionId == sessionId then rest + [last] else rest
  }

  /** The rows of one session that belong to one company, in table order. */
  function TenantSessionRows(store: seq<ChatMessage>, sessionId: Uuid, companyId: string): (r: seq<ChatMessage>)
    ensures forall m :: m in r <==> m in store && m.sessionId == sessionId && m.companyId == companyId
    ensures multiset(r) <= multiset(store)
    ensures forall m :: multiset(r)[m] ==
              if m.sessionId == sessionId && m.companyId == companyId then multiset(store)[m] else 0
  {
    if store == [] then []
    else
      var rest := TenantSessionRows(store[..|store| - 1], sessionId, companyId);
      var last := store[|store| - 1];
      assert store == store[..|store| - 1] + [last];
      if last.sessionId == sessionId && last.companyId == companyId then rest + [last] else rest
  }

  // ---------------------------------------------------------------------
  // Ordering by creation time

  predicate NewestFirst(s: seq<ChatMessage>)
  {
    forall i, j :: 0 <= i < j < |s| ==> s[i].createdAt >= s[j].createdAt
  }

  predicate OldestFirst(s: seq<ChatMessage>)
  {
    forall i, j :: 0 <= i < j < |s| ==> s[i].createdAt <= s[j].createdAt
  }

  /** Places `m` into a newest-first sequence. */
  function Insert(m: ChatMessage, s: seq<ChatMessage>): (r: seq<ChatMessage>)
    requires NewestFirst(s)
    ensures NewestFirst(r)
    ensures multiset(r) == multiset(s) + multiset{m}
    ensures |r| == |s| + 1
    ensures r[0] == m || (s != [] && r[0] == s[0])
  {
    if s == [] || m.createdAt >= s[0].createdAt then [m] + s
    else
      assert s == [s[0]] + s[1..];
      [s[0]] + Insert(m, s[1..])
  }

  /** `ORDER BY created_at DESC`: the same rows, newest first. */
  function SortNewestFirst(s: seq<ChatMessage>): (r: seq<ChatMessage>)
    ensures NewestFirst(r)
    ensures multiset(r) == multiset(s)
    ensures |r| == |s|
  {
    if s == [] then []
    else
      assert s == [s[0]] + s[1..];
      Insert(s[0], SortNewestFirst(s[1..]))
  }

  /** `rows[::-1]`. */
  function Reverse(s: seq<ChatMessage>): (r: seq<ChatMessage>)
    ensures |r| == |s|
    ensures forall i :: 0 <= i < |s| ==> r[i] == s[|s| - 1 - i]
    ensures multiset(r) == multiset(s)
  {
    if s == [] then []
    else
      assert s == s[..|s| - 1] + [s[|s| - 1]];
      [s[|s| - 1]] + Reverse(s[..|s| - 1])
  }

  /** In a newest-first sequence, nothing after position `n` is newer than
      anything before it. */
  lemma PrefixIsNewest(sorted: seq<ChatMessage>, n: nat)
    requires NewestFirst(sorted) && n <= |sorted|
    ensures forall x, y :: x in sorted[n..] && y in sorted[..n] ==> x.createdAt <= y.createdAt
  {
    forall x, y | x in sorted[n..] && y in sorted[..n]
      ensures x.createdAt <= y.createdAt
    {
      var p :| 0 <= p < |sorted[n..]| && sorted[n..][p] == x;
      var q :| 0 <= q < n && sorted[..n][q] == y;
      assert sorted[q] == y && sorted[n + p] == x;
    }
  }

  /** Reversing a newest-first sequence gives an oldest-first one. */
  lemma ReverseOrder(s: seq<ChatMessage>)
    requires NewestFirst(s)
    ensures OldestFirst(Reverse(s))
  {
    var r := Reverse(s);
    forall i, j | 0 <= i < j < |r|
      ensures r[i].createdAt <= r[j].createdAt
    {
      assert r[i] == s[|s| - 1 - i] && r[j] == s[|s| - 1 - j];
    }
  }

  /** The multiset bookkeeping of splitting a sequence into the first `n`
      elements and the rest. */
  lemma SplitMultiset(s: seq<ChatMessage>, n: nat)
    requires n <= |s|
    ensures multiset(s) - multiset(s[..n]) == multiset(s[n..])
    ensures multiset(s[..n]) <= multiset(s)
  {
    assert s == s[..n] + s[n..];
  }

  /** The newest `HistoryLimit` rows, newest first. */
  function Newest(rows: seq<ChatMessage>): seq<ChatMessage>
  {
    var sorted := SortNewestFirst(rows);
    if |sorted| < HistoryLimit then sorted else sorted[..HistoryLimit]
  }

  /** The selected rows stay newest first and there are as many as the
      limit allows. */
  lemma NewestShape(rows: seq<ChatMessage>)
    ensures NewestFirst(Newest(rows))
    ensures |Newest(rows)| == if |rows| < HistoryLimit then |rows| else HistoryLimit
  {
  }

  /** The selected rows are rows of the input, and every row left out is no
      newer than every row selected. */
  lemma NewestSelection(rows: seq<ChatMessage>)
    ensures multiset(Newest(rows)) <= multiset(rows)
    ensures forall x, y :: x in multiset(rows) - multiset(Newest(rows)) && y in multiset(Newest(rows)) ==>
              x.createdAt <= y.createdAt
  {
    var sorted := SortNewestFirst(rows);
    var n := if |sorted| < HistoryLimit then |sorted| else HistoryLimit;
    var taken := sorted[..n];
    assert Newest(rows) == taken;
    SplitMultiset(sorted, n);
    PrefixIsNewest(sorted, n);
    forall x: ChatMessage, y: ChatMessage | x in multiset(rows) - multiset(taken) && y in multiset(taken)
      ensures x.createdAt <= y.createdAt
    {
      assert x in multiset(sorted[n..]);
      assert x in sorted[n..] && y in taken;
    }
  }

  /** The history window over the rows of a session: the newest
      `HistoryLimit` of them, oldest first. */
  function Window(rows: seq<ChatMessage>): (w: seq<ChatMessage>)
    ensures OldestFirst(w)
    ensures |w| == if |rows| < HistoryLimit then |rows| else HistoryLimit
    ensures multiset(w) <= multiset(rows)
    ensures forall x, y :: x in multiset(rows) - multiset(w) && y in w ==> x.createdAt <= y.createdAt
  {
    NewestShape(rows);
    NewestSelection(rows);
    ReverseOrder(Newest(rows));
    Reverse(Newest(rows))
  }

  /** Every row of a window is one of the rows it was drawn from. */
  lemma WindowFrom(rows: seq<ChatMessage>)
    ensures forall m :: m in Window(rows) ==> m in rows
  {
    var w := Window(rows);
    forall m | m in w
      ensures m in rows
    {
      assert m in multiset(w);
    }
  }

  /** The window as the service computes it: the newest rows of the
      session, whoever wrote them, oldest first. */
  function SessionWindow(store: seq<ChatMessage>, sessionId: Uuid): (w: seq<ChatMessage>)
    ensures OldestFirst(w)
    ensures var n := |SessionRows(store, sessionId)|; |w| == if n < HistoryLimit then n else HistoryLimit
    ensures multiset(w) <= multiset(SessionRows(store, sessionId))
    ensures forall m :: m in w ==> m in store && m.sessionId == sessionId
    ensures forall x, y :: x in multiset(SessionRows(store, sessionId)) - multiset(w) && y in w ==>
              x.createdAt <= y.createdAt
  {
    WindowFrom(SessionRows(store, sessionId));
    Window(SessionRows(store, sessionId))
  }

  /** The window restricted to one company's rows of the session. */
  function TenantWindow(store: seq<ChatMessage>, sessionId: Uuid, companyId: string): (w: seq<ChatMessage>)
    ensures OldestFirst(w)
    ensures var n := |TenantSessionRows(store, sessionId, companyId)|;
            |w| == if n < HistoryLimit then n else HistoryLimit
    ensures multiset(w) <= multiset(TenantSessionRows(store, sessionId, companyId))
    ensures forall m :: m in w ==> m in store && m.sessionId == sessionId && m.companyId == companyId
    ensures forall x, y :: x in multiset(TenantSessionRows(store, sessionId, companyId)) - multiset(w) && y in w ==>
              x.createdAt <= y.createdAt
  {
    WindowFrom(TenantSessionRows(store, sessionId, companyId));
    Window(TenantSessionRows(store, sessionId, companyId))
  }

  /** A single row is its own window. */
  lemma SingleRowWindow(m: ChatMessage)
    ensures Window([m]) == [m]
  {
    var w := Window([m]);
    assert |w| == 1 && multiset(w) <= multiset([m]);
    assert w[0] in multiset(w);
  }

  /** As written, the window can hand one company's messages to another
      company's prompt: a session id reused under a different company sees
      the first company's conversation. */
  lemma SessionWindowCrossesTenants()
    ensures SessionWindow([ForeignRow], 7) == [ForeignRow]
    ensures exists m :: m in SessionWindow([ForeignRow], 7) && m.companyId != "acme-corp"
  {
    assert SessionRows([ForeignRow], 7) == [ForeignRow];
    SingleRowWindow(ForeignRow);
    assert ForeignRow in SessionWindow([ForeignRow], 7);
  }

  /** Every row of the window as written is a stored row of the session. */
  lemma SessionWindowRows(store: seq<ChatMessage>, sessionId: Uuid)
    ensures forall m :: m in SessionWindow(store, sessionId) ==> m in store && m.sessionId == sessionId
  {
    var w := SessionWindow(store, sessionId);
    forall m | m in w
      ensures m in SessionRows(store, sessionId)
    {
      assert m in multiset(w);
    }
  }

  /** A company with no row in the session gets an empty scoped window. */
  lemma TenantWindowEmpty(store: seq<ChatMessage>, sessionId: Uuid, companyId: string)
    requires forall m :: m in store && m.sessionId == sessionId ==> m.companyId != companyId
    ensures TenantWindow(store, sessionId, companyId) == []
  {
    TenantRowsEmpty(store, sessionId, companyId);
  }

  lemma {:induction false} TenantRowsEmpty(store: seq<ChatMessage>, sessionId: Uuid, companyId: string)
    requires forall m :: m in store && m.sessionId == sessionId ==> m.companyId != companyId
    ensures TenantSessionRows(store, sessionId, companyId) == []
  {
    if store != [] {
      var init := store[..|store| - 1];
      assert forall m :: m in init ==> m in store;
      TenantRowsEmpty(init, sessionId, companyId);
    }
  }

  /** A row that some other company wrote into session 7. */
  const ForeignRow: ChatMessage := ChatMessage(7, "globex", User, "our launch date is secret", None, 0)

  /** The tenant-scoped window only ever shows the requesting company's
      rows of the requested session, and it is the newest ones of them. */
  lemma TenantWindowIsolated(store: seq<ChatMessage>, sessionId: Uuid, companyId: string)
    ensures forall m :: m in TenantWindow(store, sessionId, companyId) ==>
              m in store && m.sessionId == sessionId && m.companyId == companyId
  {
    var rows := TenantSessionRows(store, sessionId, companyId);
    var w := TenantWindow(store, sessionId, companyId);
    forall m | m in w
      ensures m in rows
    {
      assert m in multiset(w);
    }
  }

  /** When a session was only ever used by one company, the scoped window
      and the window as written are the same. */
  lemma WindowsAgreeWithinOneTenant(store: seq<ChatMessage>, sessionId: Uuid, companyId: string)
    requires forall m :: m in store && m.sessionId == sessionId ==> m.companyId == companyId
    ensures TenantWindow(store, sessionId, companyId) == SessionWindow(store, sessionId)
  {
    RowsAgree(store, sessionId, companyId);
  }

  lemma {:induction false} RowsAgree(store: seq<ChatMessage>, sessionId: Uuid, companyId: string)
    requires forall m :: m in store && m.sessionId == sessionId ==> m.companyId == companyId
    ensures TenantSessionRows(store, sessionId, companyId) == SessionRows(store, sessionId)
  {
    if store != [] {
      RowsAgree(store[..|store| - 1], sessionId, companyId);
    }
  }

  // ---------------------------------------------------------------------
  // Rendering

  /** One history line: the role's value, a colon and the content. */
  function Line(m: ChatMessage): string
  {
    RoleValue(m.role) + ": " + m.content
  }

  function Lines(w: seq<ChatMessage>): (r: seq<string>)
    ensures |r| == |w|
    ensures forall i :: 0 <= i < |w| ==> r[i] == Line(w[i])
  {
    if w == [] then [] else [Line(w[0])] + Lines(w[1..])
  }

  /** The history text put into the prompt: the lines joined by newlines,
      or the placeholder when that text is empty. */
  function Render(w: seq<ChatMessage>): (r: string)
    ensures w == [] ==> r == NoHistory
    ensures w != [] ==> |Line(w[0])| <= |r| && r[..|Line(w[0])|] == Line(w[0])
  {
    JoinedLinesStart(w);
    var text := Text.Join(Lines(w), "\n");
    if text == "" then NoHistory else text
  }

  /** The joined lines of a non-empty window start with its first line,
      so they are not empty. */
  lemma JoinedLinesStart(w: seq<ChatMessage>)
    ensures w != [] ==> |Line(w[0])| <= |Text.Join(Lines(w), "\n")|
    ensures w != [] ==> Text.Join(Lines(w), "\n")[..|Line(w[0])|] == Line(w[0])
    ensures w != [] ==> Text.Join(Lines(w), "\n") != ""
  {
    if w != [] {
      Text.JoinPiece(Lines(w), "\n", 0);
      assert |Line(w[0])| > 0;
    }
  }

  /** A one-message window renders as that message's line, which shows
      the message's content. */
  lemma RenderSingle(m: ChatMessage)
    ensures Render([m]) == Line(m)
    ensures Text.Contains(Render([m]), m.content)
  {
    assert Lines([m]) == [Line(m)];
    assert |Line(m)| > 0;
    assert Line(m) == RoleValue(m.role) + ": " + m.content + "";
    Text.ContainsMiddle(RoleValue(m.role) + ": ", m.content, "");
  }

  /** The placeholder shows exactly when there is no earlier message. */
  lemma RenderPlaceholderIff(w: seq<ChatMessage>)
    ensures Render(w) == NoHistory <==> w == []
  {
    var ls := Lines(w);
    Text.JoinEmptyIff(ls, "\n");
    if w != [] {
      var text := Text.Join(ls, "\n");
      Text.JoinPiece(ls, "\n", 0);
      assert text[0] == Line(w[0])[0];
    }
  }

  /** The `i`-th line of the rendered history is the `i`-th message of the
      window, so the prompt sees the window in its (oldest-first) order. */
  lemma RenderShowsMessage(w: seq<ChatMessage>, i: nat)
    requires i < |w|
    ensures Text.Offset(Lines(w), "\n", i) + |Line(w[i])| <= |Render(w)|
    ensures Render(w)[Text.Offset(Lines(w), "\n", i)..Text.Offset(Lines(w), "\n", i) + |Line(w[i])|] == Line(w[i])
  {
    JoinedLinesStart(w);
    var text := Text.Join(Lines(w), "\n");
    assert Render(w) == text;
    Text.JoinPiece(Lines(w), "\n", i);
  }
}

=== FILE: email_pattern.dfy ===
/** The email fallback pattern `[\w.-]+@[\w.-]+` searched the way Python's
    `re.search` does: the leftmost start position at which the pattern
    matches, and there the longest match (both runs are greedy, and the
    first run cannot give anything back because '@' is outside the class).
    The text searched is JSON serialised with ASCII escaping, so `\w` is
    `[A-Za-z0-9_]`. */
module EmailPattern {
  import opened Wrappers

  predicate IsAscii(s: string)
  {
    forall i :: 0 <= i < |s| ==> s[i] as int < 128
  }

  /** The character class `[\w.-]` on ASCII text. */
  predicate InClass(c: char)
  {
    ('A' <= c <= 'Z') || ('a' <= c <= 'z') || ('0' <= c <= '9') || c == '_' || c == '.' || c == '-'
  }

  predicate AllInClass(t: string)
  {
    forall i :: 0 <= i < |t| ==> InClass(t[i])
  }

  /** `t` is a non-empty run, an '@' at `j`, and a non-empty run. */
  predicate SplitsAt(t: string, j: int)
  {
    0 < j < |t| - 1 && t[j] == '@' && AllInClass(t[..j]) && AllInClass(t[j + 1..])
  }

  /** `t` as a whole is in the language of the pattern. */
  ghost predicate InLanguage(t: string)
  {
    exists j :: SplitsAt(t, j)
  }

  /** The pattern matches `s[i..k]`. */
  ghost predicate MatchAt(s: string, i: int, k: int)
  {
    0 <= i <= k <= |s| && InLanguage(s[i..k])
  }

  /** The pattern matches somewhere in `s` starting before `bound`. */
  ghost predicate MatchBefore(s: string, bound: int)
  {
    exists i, k :: 0 <= i < bound && MatchAt(s, i, k)
  }

  /** `s[i..k]` is the match `re.search` reports: no match starts further
      left, and none from `i` reaches further right. */
  ghost predicate LeftmostLongest(s: string, i: int, k: int)
  {
    MatchAt(s, i, k)
    && !MatchBefore(s, i)
    && forall k' :: k < k' <= |s| ==> !MatchAt(s, i, k')
  }

  datatype Span = Span(start: nat, end: nat)

  /** The end of the maximal run of class characters starting at `i`. */
  function RunEnd(s: string, i: nat): (j: nat)
    requires i <= |s|
    ensures i <= j <= |s|
    ensures forall x :: i <= x < j ==> InClass(s[x])
    ensures j == |s| || !InClass(s[j])
    decreases |s| - i
  {
    if i < |s| && InClass(s[i]) then RunEnd(s, i + 1) else i
  }

  /** A run that is all class characters and ends on a non-class character
      ends where `RunEnd` says. */
  lemma RunEndUnique(s: string, i: nat, j: nat)
    requires i <= j < |s|
    requires forall x :: i <= x < j ==> InClass(s[x])
    requires !InClass(s[j])
    ensures RunEnd(s, i) == j
  {
  }

  /** Whatever split a match of `s[i..k]` has, its '@' is where the run
      starting at `i` ends. */
  lemma SplitIsRunEnd(s: string, i: nat, k: nat, j: int)
    requires i <= k <= |s| && SplitsAt(s[i..k], j)
    ensures RunEnd(s, i) == i + j
  {
    var t := s[i..k];
    forall x | i <= x < i + j
      ensures InClass(s[x])
    {
      assert s[x] == t[..j][x - i];
    }
    assert s[i + j] == t[j];
    RunEndUnique(s, i, i + j);
  }

  /** The local test the search makes at position `i`. */
  predicate StartsMatch(s: string, i: nat)
    requires i <= |s|
  {
    i < |s| && InClass(s[i]) &&
    var j := RunEnd(s, i);
    j + 1 < |s| && s[j] == '@' && InClass(s[j + 1])
  }

  /** If the local test fails at `i`, no match starts at `i`. */
  lemma NoMatchAt(s: string, i: nat)
    requires i <= |s| && !StartsMatch(s, i)
    ensures forall k :: !MatchAt(s, i, k)
  {
    forall k | MatchAt(s, i, k)
      ensures false
    {
      var t := s[i..k];
      var j :| SplitsAt(t, j);
      SplitIsRunEnd(s, i, k, j);
      assert s[i] == t[..j][0];
      assert s[i + j + 1] == t[j + 1..][0];
      assert StartsMatch(s, i);
    }
  }

  /** If the local test succeeds at `i`, the pattern matches from `i` to the
      end of the second run, and no further. */
  lemma MatchFoundAt(s: string, i: nat)
    requires i <= |s| && StartsMatch(s, i)
    ensures MatchAt(s, i, RunEnd(s, RunEnd(s, i) + 1))
    ensures forall k' :: RunEnd(s, RunEnd(s, i) + 1) < k' <= |s| ==> !MatchAt(s, i, k')
  {
    var j := RunEnd(s, i);
    var k := RunEnd(s, j + 1);
    var t := s[i..k];
    assert SplitsAt(t, j - i) by {
      var left, right := t[..j - i], t[j - i + 1..];
      forall x | 0 <= x < |left|
        ensures InClass(left[x])
      {
        assert left[x] == s[i + x];
      }
      forall x | 0 <= x < |right|
        ensures InClass(right[x])
      {
        assert right[x] == s[j + 1 + x];
      }
    }
    forall k' | MatchAt(s, i, k')
      ensures k' <= k
    {
      MatchEnd(s, i, k');
    }
  }

  /** A run of class characters from `i` up to `c` does not end before `c`. */
  lemma {:induction false} RunEndAtLeast(s: string, i: nat, c: nat)
    requires i <= c <= |s|
    requires forall x :: i <= x < c ==> InClass(s[x])
    ensures c <= RunEnd(s, i)
    decreases c - i
  {
    if i < c {
      RunEndAtLeast(s, i + 1, c);
    }
  }

  /** Every match from `i` ends no later than the run after the first '@'. */
  lemma MatchEnd(s: string, i: nat, k': nat)
    requires MatchAt(s, i, k')
    ensures RunEnd(s, i) + 1 <= k'
    ensures k' <= RunEnd(s, RunEnd(s, i) + 1)
  {
    var t' := s[i..k'];
    var j' :| SplitsAt(t', j');
    SplitIsRunEnd(s, i, k', j');
    var right := t'[j' + 1..];
    forall x | i + j' + 1 <= x < k'
      ensures InClass(s[x])
    {
      assert s[x] == right[x - (i + j' + 1)];
    }
    RunEndAtLeast(s, i + j' + 1, k');
  }

  /** `re.search` from position `i` on, given that nothing matches earlier. */
  function SearchFrom(s: string, i: nat): (r: Option<Span>)
    requires i <= |s|
    requires !MatchBefore(s, i)
    ensures r.None? ==> !MatchBefore(s, |s| + 1)
    ensures r.Some? ==> LeftmostLongest(s, r.value.start, r.value.end)
    decreases |s| - i
  {
    if StartsMatch(s, i) then
      MatchFoundAt(s, i);
      Some(Span(i, RunEnd(s, RunEnd(s, i) + 1)))
    else
      NoMatchAt(s, i);
      if i == |s| then None else SearchFrom(s, i + 1)
  }

  /** `re.search(pattern, s)` on ASCII text: `None` exactly when the pattern
      matches nowhere, otherwise the leftmost-longest match. */
  function Search(s: string): (r: Option<Span>)
    requires IsAscii(s)
    ensures r.None? <==> !MatchBefore(s, |s| + 1)
    ensures r.Some? ==> LeftmostLongest(s, r.value.start, r.value.end)
  {
    SearchFrom(s, 0)
  }

  /** The shape of any match `re.search` reports: a piece of the input with
      one '@', non-empty runs on both sides, and no class character
      immediately before or after it. */
  lemma MatchShape(s: string, i: nat, k: nat)
    requires LeftmostLongest(s, i, k)
    ensures i < k <= |s|
    ensures exists j :: SplitsAt(s[i..k], j)
    ensures forall x, y :: i <= x < k && i <= y < k && s[x] == '@' && s[y] == '@' ==> x == y
    ensures i == 0 || !InClass(s[i - 1])
    ensures k == |s| || !InClass(s[k])
  {
    var t := s[i..k];
    var j :| SplitsAt(t, j);
    forall x | i <= x < k && s[x] == '@'
      ensures x == i + j
    {
    }
    if i > 0 && InClass(s[i - 1]) {
      var t' := s[i - 1..k];
      assert SplitsAt(t', j + 1) by {
        assert t'[..j + 1] == [s[i - 1]] + t[..j];
        assert t'[j + 2..] == t[j + 1..];
      }
      assert MatchAt(s, i - 1, k);
      assert MatchBefore(s, i);
    }
    if k < |s| && InClass(s[k]) {
      var t' := s[i..k + 1];
      assert SplitsAt(t', j) by {
        assert t'[..j] == t[..j];
        assert t'[j + 1..] == t[j + 1..] + [s[k]];
      }
      assert MatchAt(s, i, k + 1);
    }
  }
}

=== FILE: ids.dfy ===
/** Identifiers shared by both services. */
module Ids {
  /** A UUID, as the 128-bit number it denotes. */
  type Uuid = nat
}

=== FILE: rag_routers.dfy ===
/** The HTTP endpoints of the chat service: ingestion, and the chat
    endpoint that merges a JSON body with query parameters before calling
    the answer pipeline. */
module RagRouters {
  import opened Wrappers
  import opened Ids
  import opened RagSchemas
  import RagService

  // ---------------------------------------------------------------------
  // POST /ingest

  datatype IngestResponse = IngestResponse(status: string, chunksIngested: nat, companyId: string)

  /** The ingest endpoint: `companyParam` is the `company_id` query
      parameter (`None` when absent). Returns the response and the index
      after ingestion. */
  function IngestEndpoint(companyParam: Option<string>, loaded: seq<RagService.Document>,
                          split: string -> seq<string>, index: seq<RagService.Document>)
    : (r: (IngestResponse, seq<RagService.Document>))
    ensures r.0.status == "success"
    ensures companyParam.Some? ==> r.0.companyId == companyParam.value
    ensures companyParam.None? ==> r.0.companyId == DefaultCompany
    ensures |index| <= |r.1| && r.1[..|index|] == index
    ensures r.0.chunksIngested == |r.1| - |index|
    ensures forall c :: c in r.1[|index|..] ==> c.metadata.companyId == Some(r.0.companyId)
  {
    var companyId := companyParam.GetOr(DefaultCompany);
    var result := RagService.Ingest(companyId, loaded, split, index);
    (IngestResponse("success", result.count, companyId), result.index)
  }

  // ---------------------------------------------------------------------
  // POST /chat

  /** One entry of a validation error's detail list. */
  datatype FieldError = FieldError(loc: seq<string>, msg: string, kind: string)

  datatype HttpError = HttpError(status: int, detail: seq<FieldError>)

  /** The error the endpoint raises for a missing query, shaped like the
      framework's own missing-field error. */
  const MissingQuery: HttpError := HttpError(422, [FieldError(["query"], "Field required", "value_error.missing")])

  /** The query parameters; `None` is an absent parameter. */
  datatype ChatParams = ChatParams(query: Option<string>, companyId: Option<string>, sessionId: Option<Uuid>)

  /** The arguments the endpoint passes on to the answer pipeline. */
  datatype ChatCall = ChatCall(companyId: string, query: string, sessionId: Uuid)

  /** Python truthiness of an optional string. */
  predicate Truthy(v: Option<string>)
  {
    v.Some? && v.value != ""
  }

  /** Merges body and query parameters (the body, when present, supplies
      all three values), rejects a missing or empty query, and draws the
      fresh session id `freshId` when none was given. */
  function RouteChat(params: ChatParams, body: Option<ChatRequest>, freshId: Uuid): (r: Result<ChatCall, HttpError>)
    ensures body.Some? ==> (r.Err? <==> body.value.query == "")
    ensures body.None? ==> (r.Err? <==> !Truthy(params.query))
    ensures r.Err? ==> r.error == MissingQuery
    ensures r.Ok? && body.Some? ==>
              && r.value.query == body.value.query
              && r.value.companyId == body.value.companyId
              && (body.value.sessionId.Some? ==> r.value.sessionId == body.value.sessionId.value)
              && (body.value.sessionId.None? ==> r.value.sessionId == freshId)
    ensures r.Ok? && body.None? ==>
              && r.value.query == params.query.value
              && r.value.companyId == params.companyId.GetOr(DefaultCompany)
              && (params.sessionId.Some? ==> r.value.sessionId == params.sessionId.value)
              && (params.sessionId.None? ==> r.value.sessionId == freshId)
  {
    var query := if body.Some? then Some(body.value.query) else params.query;
    var companyId := if body.Some? then body.value.companyId else params.companyId.GetOr(DefaultCompany);
    var sessionId := if body.Some? then body.value.sessionId else params.sessionId;
    if !Truthy(query) then Err(MissingQuery)
    else Ok(ChatCall(companyId, query.value, sessionId.GetOr(freshId)))
  }

  /** A body replaces the query parameters wholesale: a body without a
      session id yields a fresh session even when the query string named
      one. */
  lemma BodyOverridesParams(params: ChatParams, req: ChatRequest, freshId: Uuid)
    requires req.query != "" && req.sessionId.None? && params.sessionId.Some? && params.sessionId.value != freshId
    ensures RouteChat(params, Some(req), freshId).Ok?
    ensures RouteChat(params, Some(req), freshId).value.sessionId != params.sessionId.value
  {
  }

  /** The chat endpoint end to end: a rejected request never reaches the
      pipeline; an accepted one is exactly one pipeline turn with the merged
      arguments. */
  function ChatEndpoint(params: ChatParams, body: Option<ChatRequest>, freshId: Uuid,
                        docs: seq<RagService.Document>, store: seq<ChatMessage>, modelOutput: string,
                        userAt: int, assistantAt: int): (r: Result<RagService.ChatTurn, HttpError>)
    requires RouteChat(params, body, freshId).Ok? ==>
               RagService.RetrievedFor(docs, RouteChat(params, body, freshId).value.companyId)
    ensures RouteChat(params, body, freshId).Err? ==> r == Err(MissingQuery)
    ensures RouteChat(params, body, freshId).Ok? ==>
              var c := RouteChat(params, body, freshId).value;
              r == Ok(RagService.Chat(c.companyId, c.query, c.sessionId, docs, store, modelOutput, userAt, assistantAt))
  {
    match RouteChat(params, body, freshId)
    case Err(e) => Err(e)
    case Ok(c) => Ok(RagService.Chat(c.companyId, c.query, c.sessionId, docs, store, modelOutput, userAt, assistantAt))
  }
}

=== FILE: rag_schemas.dfy ===
/** Records of the retrieval-augmented chat service: chat roles, stored chat
    messages, the chat request and the chat response. */
module RagSchemas {
  import opened Wrappers
  import opened Ids

  /** The company every request falls back to when it names none. */
  const DefaultCompany: string := "acme-corp"

  /** `ChatRole`: a string enum with exactly two members. */
  datatype ChatRole = User | Assistant

  /** The string value of a role. */
  function RoleValue(r: ChatRole): string
  {
    match r
    case User => "user"
    case Assistant => "assistant"
  }

  /** Enum lookup by value: only the two role values are accepted. */
  function ParseRole(s: string): (r: Option<ChatRole>)
    ensures r.Some? ==> RoleValue(r.value) == s
    ensures r.None? <==> s != "user" && s != "assistant"
  {
    if s == "user" then Some(User)
    else if s == "assistant" then Some(Assistant)
    else None
  }

  /** Each role reads back from its value, and the two values differ. */
  lemma RoleRoundTrip(r: ChatRole)
    ensures ParseRole(RoleValue(r)) == Some(r)
    ensures RoleValue(User) != RoleValue(Assistant)
  {
  }

  /** One row of the chat history table. The row's own random primary key
      is not modelled; `createdAt` is the creation clock reading. */
  datatype ChatMessage = ChatMessage(
    sessionId: Uuid,
    companyId: string,
    role: ChatRole,
    content: string,
    confidence: Option<real>,
    createdAt: int)

  /** Builds a row the way the keyword constructor does: `confidence` is
      `None` when the keyword is omitted (outer `None`) and the given value
      otherwise. */
  function NewChatMessage(sessionId: Uuid, companyId: string, role: ChatRole, content: string,
                          createdAt: int, confidence: Option<Option<real>>): (m: ChatMessage)
    ensures confidence.None? ==> m.confidence.None?
    ensures confidence.Some? ==> m.confidence == confidence.value
    ensures m.sessionId == sessionId && m.companyId == companyId && m.role == role
    ensures m.content == content && m.createdAt == createdAt
  {
    ChatMessage(sessionId, companyId, role, content, confidence.GetOr(None), createdAt)
  }

  /** The chat answer: exactly these four fields. */
  datatype RagResponse = RagResponse(answer: string, confidence: real, sources: seq<string>, refusal: bool)

  /** A chat request body after validation. */
  datatype ChatRequest = ChatRequest(query: string, companyId: string, sessionId: Option<Uuid>)

  /** Validates a chat request body. Each argument is `None` when the key is
      absent; `sessionId` is `Some(None)` for an explicit null. `query` is
      required; `company_id` defaults to the default company and
      `session_id` to null. */
  function MakeChatRequest(query: Option<string>, companyId: Option<string>,
                           sessionId: Option<Option<Uuid>>): (r: Result<ChatRequest, string>)
    ensures r.Err? <==> query.None?
    ensures r.Err? ==> r.error == "query"
    ensures r.Ok? ==> r.value.query == query.value
    ensures r.Ok? && companyId.None? ==> r.value.companyId == DefaultCompany
    ensures r.Ok? && companyId.Some? ==> r.value.companyId == companyId.value
    ensures r.Ok? && sessionId.None? ==> r.value.sessionId.None?
    ensures r.Ok? && sessionId.Some? ==> r.value.sessionId == sessionId.value
  {
    match query
    case None => Err("query")
    case Some(q) => Ok(ChatRequest(q, companyId.GetOr(DefaultCompany), sessionId.GetOr(None)))
  }
}

=== FILE: rag_service.dfy ===
/** The retrieval-augmented answer pipeline: ingestion tags documents with
    their company and source, and a chat turn turns the retrieved documents,
    the stored chat rows and the model's reply into an answer, a refusal
    flag, a confidence and the rows to append. Retrieval, splitting, the
    model and the database are inputs. */
module RagService {
  import opened Wrappers
  import opened Ids
  import opened RagSchemas
  import Text
  import ChatHistory

  /** Number of documents the retriever returns at most. */
  const TopK: nat := 6

  /** The phrase whose presence in the lower-cased answer marks a refusal. */
  const RefusalMarker: string := "don't have information"

  /** The fixed refusal sentence, used both in the prompt and as the
      short-circuit answer: "I don't have information about that in our
      company documents." */
  const RefusalSentence: string := "I " + RefusalMarker + RefusalTail

  const RefusalTail: string := " about that in our company documents."

  /** The source recorded for a document whose loader gave none. */
  const UnknownSource: string := "unknown"

  // ---------------------------------------------------------------------
  // Documents

  /** The metadata keys the pipeline reads or writes; every one may be
      absent. */
  datatype Metadata = Metadata(companyId: Option<string>, source: Option<string>, score: Option<real>)

  datatype Document = Document(pageContent: string, metadata: Metadata)

  /** The document's source, or "unknown" when the key is absent. */
  function SourceOf(d: Document): string
  {
    d.metadata.source.GetOr(UnknownSource)
  }

  // ---------------------------------------------------------------------
  // Ingestion

  /** Tags one loaded document with the ingesting company and a source. */
  function Tag(d: Document, companyId: string): (t: Document)
    ensures t.metadata.companyId == Some(companyId)
    ensures t.metadata.source == Some(SourceOf(d))
    ensures t.pageContent == d.pageContent && t.metadata.score == d.metadata.score
  {
    Document(d.pageContent, Metadata(Some(companyId), Some(SourceOf(d)), d.metadata.score))
  }

  /** Tagging keeps a source that is present and a second tagging changes
      nothing. */
  lemma TagKeepsSource(d: Document, companyId: string)
    ensures d.metadata.source.Some? ==> Tag(d, companyId).metadata.source == d.metadata.source
    ensures Tag(Tag(d, companyId), companyId) == Tag(d, companyId)
  {
  }

  /** The chunks of one document: each piece the splitter cuts from its
      text, carrying a copy of the document's metadata. */
  function SplitDocument(d: Document, split: string -> seq<string>): (r: seq<Document>)
    ensures |r| == |split(d.pageContent)|
    ensures forall i :: 0 <= i < |r| ==> r[i].pageContent == split(d.pageContent)[i] && r[i].metadata == d.metadata
  {
    var pieces := split(d.pageContent);
    seq(|pieces|, i requires 0 <= i < |pieces| => Document(pieces[i], d.metadata))
  }

  /** How many chunks the splitter makes from `docs`. */
  function ChunkCount(docs: seq<Document>, split: string -> seq<string>): nat
  {
    if docs == [] then 0 else |split(docs[0].pageContent)| + ChunkCount(docs[1..], split)
  }

  /** `split_documents`: the chunks of every document, in document order;
      every chunk carries the metadata of a document it came from. */
  function SplitDocuments(docs: seq<Document>, split: string -> seq<string>): (r: seq<Document>)
    ensures |r| == ChunkCount(docs, split)
    ensures forall c :: c in r ==> exists d :: d in docs && c.metadata == d.metadata
  {
    if docs == [] then []
    else
      var first := SplitDocument(docs[0], split);
      var rest := SplitDocuments(docs[1..], split);
      assert forall c :: c in first ==> c.metadata == docs[0].metadata;
      assert forall d :: d in docs[1..] ==> d in docs;
      first + rest
  }

  function TagAll(docs: seq<Document>, companyId: string): (r: seq<Document>)
    ensures |r| == |docs|
    ensures forall i :: 0 <= i < |docs| ==> r[i] == Tag(docs[i], companyId)
  {
    if docs == [] then [] else [Tag(docs[0], companyId)] + TagAll(docs[1..], companyId)
  }

  /** The index after ingestion and the count returned. */
  datatype IngestResult = IngestResult(index: seq<Document>, count: nat)

  /** `ingest_documents`: tags every loaded document, splits, appends the
      chunks to the index, and returns how many were appended. */
  function Ingest(companyId: string, loaded: seq<Document>, split: string -> seq<string>,
                  index: seq<Document>): (r: IngestResult)
    ensures |index| <= |r.index| && r.index[..|index|] == index
    ensures r.count == |r.index| - |index|
    ensures forall c :: c in r.index[|index|..] ==> c.metadata.companyId == Some(companyId)
    ensures forall c :: c in r.index[|index|..] ==>
              exists d :: d in loaded && c.metadata.source == Some(SourceOf(d))
  {
    var tagged := TagAll(loaded, companyId);
    var chunks := SplitDocuments(tagged, split);
    var added := index + chunks;
    assert added[..|index|] == index && added[|index|..] == chunks;
    forall c | c in chunks
      ensures c.metadata.companyId == Some(companyId)
      ensures exists d :: d in loaded && c.metadata.source == Some(SourceOf(d))
    {
      var t :| t in tagged && c.metadata == t.metadata;
      var i :| 0 <= i < |tagged| && tagged[i] == t;
      assert loaded[i] in loaded;
    }
    IngestResult(added, |chunks|)
  }

  /** The count is the number of pieces the splitter cut from the tagged
      documents. */
  lemma IngestCountsChunks(companyId: string, loaded: seq<Document>, split: string -> seq<string>,
                           index: seq<Document>)
    ensures Ingest(companyId, loaded, split, index).count == ChunkCount(TagAll(loaded, companyId), split)
  {
  }

  // ---------------------------------------------------------------------
  // Confidence

  function Abs(x: real): real { if x < 0.0 then -x else x }

  /** How far the integer `m` is from `y`. */
  function Distance(m: int, y: real): real { Abs(m as real - y) }

  /** The integer nearest to `y`, ties going to the even one. */
  function RoundHalfEven(y: real): (n: int)
    ensures Distance(n, y) <= 0.5
    ensures forall m: int :: Distance(m, y) >= Distance(n, y)
    ensures Distance(n, y) == 0.5 ==> n % 2 == 0
  {
    var f := y.Floor;
    var frac := y - f as real;
    var n := if frac < 0.5 then f
             else if frac > 0.5 then f + 1
             else if f % 2 == 0 then f
             else f + 1;
    NearestInteger(y, n);
    n
  }

  /** Either neighbour of `y` that is at most one half away is nearest. */
  lemma NearestInteger(y: real, n: int)
    requires n == y.Floor || n == y.Floor + 1
    requires Distance(n, y) <= 0.5
    ensures forall m: int :: Distance(m, y) >= Distance(n, y)
  {
    forall m: int
      ensures Distance(m, y) >= Distance(n, y)
    {
      if m <= y.Floor {
        assert Distance(m, y) == y - m as real;
      } else {
        assert Distance(m, y) == m as real - y;
      }
    }
  }

  /** `round(x, 3)`: the nearest multiple of one thousandth, ties to even. */
  function Round3(x: real): (r: real)
    ensures r * 1000.0 == RoundHalfEven(x * 1000.0) as real
    ensures Abs(r - x) <= 0.0005
  {
    RoundHalfEven(x * 1000.0) as real / 1000.0
  }

  /** Rounding keeps zero and the unit interval, and a rounded value rounds
      to itself. */
  lemma Round3Facts(x: real)
    ensures Round3(0.0) == 0.0
    ensures 0.0 <= x <= 1.0 ==> 0.0 <= Round3(x) <= 1.0
    ensures Round3(Round3(x)) == Round3(x)
  {
    var n := RoundHalfEven(x * 1000.0);
    assert Round3(x) * 1000.0 == n as real;
    assert RoundHalfEven(n as real) == n by {
      assert Distance(n, n as real) == 0.0;
    }
    if 0.0 <= x <= 1.0 {
      assert Distance(0, x * 1000.0) >= Distance(n, x * 1000.0);
      assert Distance(1000, x * 1000.0) >= Distance(n, x * 1000.0);
    }
    assert RoundHalfEven(0.0) == 0 by {
      assert Distance(0, 0.0) == 0.0;
    }
  }

  /** A document's score, 0 when it carries none. */
  function ScoreOf(d: Document): real
  {
    d.metadata.score.GetOr(0.0)
  }

  /** The largest score among non-empty `docs`. */
  function MaxScore(docs: seq<Document>): (m: real)
    requires docs != []
    ensures exists i :: 0 <= i < |docs| && m == ScoreOf(docs[i])
    ensures forall i :: 0 <= i < |docs| ==> ScoreOf(docs[i]) <= m
  {
    if |docs| == 1 then ScoreOf(docs[0])
    else
      var rest := MaxScore(docs[1..]);
      var j :| 0 <= j < |docs[1..]| && rest == ScoreOf(docs[1..][j]);
      assert docs[1..][j] == docs[j + 1];
      assert forall i :: 1 <= i < |docs| ==> docs[i] == docs[1..][i - 1];
      if ScoreOf(docs[0]) >= rest then ScoreOf(docs[0]) else rest
  }

  /** The reported confidence: the largest score rounded to three places,
      0 for no documents. */
  function Confidence(docs: seq<Document>): (c: real)
    ensures docs == [] ==> c == 0.0
    ensures docs != [] ==> c == Round3(MaxScore(docs))
    ensures docs != [] ==> Abs(c - MaxScore(docs)) <= 0.0005
  {
    if docs == [] then 0.0 else Round3(MaxScore(docs))
  }

  /** Without any score the confidence is 0; with every score in the unit
      interval, so is the confidence. */
  lemma ConfidenceBounds(docs: seq<Document>)
    ensures (forall i :: 0 <= i < |docs| ==> docs[i].metadata.score.None?) ==> Confidence(docs) == 0.0
    ensures (forall i :: 0 <= i < |docs| ==> 0.0 <= ScoreOf(docs[i]) <= 1.0) ==> 0.0 <= Confidence(docs) <= 1.0
  {
    if docs != [] {
      var m := MaxScore(docs);
      Round3Facts(m);
      if forall i :: 0 <= i < |docs| ==> docs[i].metadata.score.None? {
        var i :| 0 <= i < |docs| && m == ScoreOf(docs[i]);
        assert m == 0.0;
      }
    }
  }

  // ---------------------------------------------------------------------
  // Context and sources

  function Contents(docs: seq<Document>): (r: seq<string>)
    ensures |r| == |docs|
    ensures forall i :: 0 <= i < |docs| ==> r[i] == docs[i].pageContent
  {
    if docs == [] then [] else [docs[0].pageContent] + Contents(docs[1..])
  }

  /** The documents' texts separated by blank lines. */
  function Context(docs: seq<Document>): (r: string)
    ensures docs == [] ==> r == ""
    ensures |docs| == 1 ==> r == docs[0].pageContent
    ensures forall i :: 0 <= i < |docs| ==> Text.Contains(r, docs[i].pageContent)
  {
    Text.JoinContains(Contents(docs), "\n\n");
    Text.Join(Contents(docs), "\n\n")
  }

  /** The context holds every document's text at its offset, in retrieval
      order, with a blank line between neighbours. */
  lemma ContextInRetrievalOrder(docs: seq<Document>, i: nat)
    requires i < |docs|
    ensures Text.Offset(Contents(docs), "\n\n", i) + |docs[i].pageContent| <= |Context(docs)|
    ensures Context(docs)[Text.Offset(Contents(docs), "\n\n", i)..
                          Text.Offset(Contents(docs), "\n\n", i) + |docs[i].pageContent|] == docs[i].pageContent
    ensures i + 1 < |docs| ==>
              Text.Offset(Contents(docs), "\n\n", i + 1) == Text.Offset(Contents(docs), "\n\n", i) + |docs[i].pageContent| + 2
  {
    Text.JoinPiece(Contents(docs), "\n\n", i);
    if i + 1 < |docs| {
      Text.JoinSeparator(Contents(docs), "\n\n", i);
    }
  }

  function SourceList(docs: seq<Document>): (r: seq<string>)
    ensures |r| == |docs|
    ensures forall i :: 0 <= i < |docs| ==> r[i] == SourceOf(docs[i])
  {
    if docs == [] then [] else [SourceOf(docs[0])] + SourceList(docs[1..])
  }

  /** The distinct sources of the documents. */
  function Sources(docs: seq<Document>): (r: seq<string>)
    ensures Text.NoDuplicates(r)
    ensures forall s :: s in r <==> exists i :: 0 <= i < |docs| && SourceOf(docs[i]) == s
  {
    var all := SourceList(docs);
    var r := Text.Dedup(all);
    assert forall s :: s in all <==> exists i :: 0 <= i < |docs| && SourceOf(docs[i]) == s by {
      forall s | s in all ensures exists i :: 0 <= i < |docs| && SourceOf(docs[i]) == s {
        var i :| 0 <= i < |all| && all[i] == s;
      }
    }
    r
  }

  // ---------------------------------------------------------------------
  // Prompt and refusal

  /** The system prompt: the company, the grounding rule with the exact
      refusal sentence, the context and the history. */
  function Prompt(companyName: string, context: string, history: string): (r: string)
    ensures |PromptOpening + companyName| <= |r| && r[..|PromptOpening + companyName|] == PromptOpening + companyName
    ensures |PromptHistoryHeading + history| <= |r|
    ensures r[|r| - |PromptHistoryHeading + history|..] == PromptHistoryHeading + history
  {
    PromptOpening + companyName + PromptRules + RefusalSentence + PromptContextHeading
    + context + PromptHistoryHeading + history
  }

  const PromptOpening: string := "You are a precise assistant for "
  const PromptRules: string := ".\nAnswer STRICTLY using ONLY the provided context.\n"
    + "If the answer is not in the context, reply EXACTLY:\n\""
  const PromptContextHeading: string := "\"\n\nContext:\n"
  const PromptHistoryHeading: string := "\n\nPrevious conversation:\n"

  /** The prompt names the company, quotes the refusal sentence verbatim,
      and embeds the context and the history. */
  lemma PromptCarriesParts(companyName: string, context: string, history: string)
    ensures Text.Contains(Prompt(companyName, context, history), companyName)
    ensures Text.Contains(Prompt(companyName, context, history), RefusalSentence)
    ensures Text.Contains(Prompt(companyName, context, history), context)
    ensures Text.Contains(Prompt(companyName, context, history), history)
  {
    PromptHasCompany(companyName, context, history);
    PromptHasRefusal(companyName, context, history);
    PromptHasContext(companyName, context, history);
    PromptHasHistory(companyName, context, history);
  }

  lemma PromptHasCompany(companyName: string, context: string, history: string)
    ensures Text.Contains(Prompt(companyName, context, history), companyName)
  {
    var after := PromptRules + RefusalSentence + PromptContextHeading + context + PromptHistoryHeading + history;
    assert Prompt(companyName, context, history) == PromptOpening + companyName + after;
    Text.ContainsMiddle(PromptOpening, companyName, after);
  }

  lemma PromptHasRefusal(companyName: string, context: string, history: string)
    ensures Text.Contains(Prompt(companyName, context, history), RefusalSentence)
  {
    var before := PromptOpening + companyName + PromptRules;
    var after := PromptContextHeading + context + PromptHistoryHeading + history;
    assert Prompt(companyName, context, history) == before + RefusalSentence + after;
    Text.ContainsMiddle(before, RefusalSentence, after);
  }

  lemma PromptHasContext(companyName: string, context: string, history: string)
    ensures Text.Contains(Prompt(companyName, context, history), context)
  {
    var before := PromptOpening + companyName + PromptRules + RefusalSentence + PromptContextHeading;
    var after := PromptHistoryHeading + history;
    assert Prompt(companyName, context, history) == before + context + after;
    Text.ContainsMiddle(before, context, after);
  }

  lemma PromptHasHistory(companyName: string, context: string, history: string)
    ensures Text.Contains(Prompt(companyName, context, history), history)
  {
    var before := PromptOpening + companyName + PromptRules + RefusalSentence + PromptContextHeading
                  + context + PromptHistoryHeading;
    assert Prompt(companyName, context, history) == before + history + "";
    Text.ContainsMiddle(before, history, "");
  }

  /** The refusal test applied to the final answer. */
  function IsRefusal(answer: string): (b: bool)
    ensures b <==> exists i :: MarkerAt(answer, i)
  {
    var lower := Text.Lower(answer);
    assert forall i :: Text.OccursAt(lower, RefusalMarker, i) <==> MarkerAt(answer, i) by {
      forall i ensures Text.OccursAt(lower, RefusalMarker, i) <==> MarkerAt(answer, i) {
        if 0 <= i && i + |RefusalMarker| <= |answer| {
          var slice := lower[i..i + |RefusalMarker|];
          assert forall k :: 0 <= k < |RefusalMarker| ==> slice[k] == lower[i + k];
        }
      }
    }
    Text.Contains(lower, RefusalMarker)
  }

  /** The marker starts at `i` of the answer, ignoring the case of ASCII
      letters. */
  ghost predicate MarkerAt(answer: string, i: int)
  {
    0 <= i && i + |RefusalMarker| <= |answer|
    && forall k :: 0 <= k < |RefusalMarker| ==> Text.LowerChar(answer[i + k]) == RefusalMarker[k]
  }

  /** The detector recognises the refusal sentence wherever it appears in
      an answer, whatever surrounds it: the sentence the prompt asks for is
      the sentence the detector looks for. */
  lemma RefusalSentenceDetected(before: string, after: string)
    ensures IsRefusal(RefusalSentence)
    ensures IsRefusal(before + RefusalSentence + after)
  {
    var rest := RefusalTail;
    MarkerHasNoCapitals();
    Text.LowerKeeps(RefusalMarker);
    Text.LowerConcat("I " + RefusalMarker, rest);
    Text.LowerConcat("I ", RefusalMarker);
    var low := Text.Lower(RefusalSentence);
    assert low == Text.Lower("I ") + RefusalMarker + Text.Lower(rest);
    Text.ContainsMiddle(Text.Lower("I "), RefusalMarker, Text.Lower(rest));
    Text.LowerConcat(before + RefusalSentence, after);
    Text.LowerConcat(before, RefusalSentence);
    Text.ContainsExtend(low, RefusalMarker, Text.Lower(before), Text.Lower(after));
  }

  lemma MarkerHasNoCapitals()
    ensures forall i :: 0 <= i < |RefusalMarker| ==> !Text.IsUpper(RefusalMarker[i])
  {
  }

  /** The short-circuit answer. */
  const RefusalResponse: RagResponse := RagResponse(RefusalSentence, 0.0, [], true)

  // ---------------------------------------------------------------------
  // A chat turn

  /** The retriever's promise: at most `TopK` documents, every one of
      them belonging to the requested company. */
  predicate RetrievedFor(docs: seq<Document>, companyId: string)
  {
    && |docs| <= TopK
    && forall i :: 0 <= i < |docs| ==> docs[i].metadata.companyId == Some(companyId)
  }

  /** The two messages sent to the chat model. */
  datatype ModelCall = ModelCall(system: string, human: string)

  /** What one chat turn does: the response, the model call it makes (if
      any) and the rows it appends to the chat table. */
  datatype ChatTurn = ChatTurn(response: RagResponse, modelCall: Option<ModelCall>, appended: seq<ChatMessage>)

  /** What a chat turn promises, given the history window it reads:
      nothing retrieved means the fixed refusal with no model call and no
      rows; otherwise the answer is the stripped reply, the confidence the
      rounded best score, the sources the documents' distinct sources, the
      model sees the filled prompt and the query, and the user row and the
      assistant row are appended, in that order. */
  predicate TurnFacts(t: ChatTurn, companyId: string, query: string, sessionId: Uuid,
                      docs: seq<Document>, window: seq<ChatMessage>, modelOutput: string,
                      userAt: int, assistantAt: int)
  {
    && (docs == [] ==> t == ChatTurn(RefusalResponse, None, []))
    && (t.response.refusal <==> IsRefusal(t.response.answer))
    && Text.NoDuplicates(t.response.sources)
    && (forall s :: s in t.response.sources ==>
          exists i :: 0 <= i < |docs| && SourceOf(docs[i]) == s && docs[i].metadata.companyId == Some(companyId))
    && (docs != [] ==>
          && t.response.sources == Sources(docs)
          && t.response.answer == Text.Strip(modelOutput)
          && t.response.confidence == Confidence(docs)
          && t.modelCall == Some(ModelCall(Prompt(companyId, Context(docs), ChatHistory.Render(window)), query))
          && |t.appended| == 2
          && t.appended[0] == ChatMessage(sessionId, companyId, User, query, None, userAt)
          && t.appended[1] == ChatMessage(sessionId, companyId, Assistant, t.response.answer,
                                          Some(t.response.confidence), assistantAt))
  }

  /** One chat turn over a given history window. `docs` is what the
      retriever returned for the query, `modelOutput` the model's raw reply
      (read only when the model is called), `userAt`/`assistantAt` the
      creation times of the appended rows. */
  function Turn(companyId: string, query: string, sessionId: Uuid, docs: seq<Document>,
                window: seq<ChatMessage>, modelOutput: string, userAt: int, assistantAt: int): (t: ChatTurn)
    requires RetrievedFor(docs, companyId)
    ensures TurnFacts(t, companyId, query, sessionId, docs, window, modelOutput, userAt, assistantAt)
  {
    if docs == [] then
      RefusalSentenceDetected("", "");
      ChatTurn(RefusalResponse, None, [])
    else
      var confidence := Confidence(docs);
      var sources := Sources(docs);
      var answer := Text.Strip(modelOutput);
      var rows := [NewChatMessage(sessionId, companyId, User, query, userAt, None),
                   NewChatMessage(sessionId, companyId, Assistant, answer, assistantAt, Some(Some(confidence)))];
      ChatTurn(RagResponse(answer, confidence, sources, IsRefusal(answer)),
               Some(ModelCall(Prompt(companyId, Context(docs), ChatHistory.Render(window)), query)), rows)
  }

  /** `chat` as written: the history is the session's window, read by
      session id alone (`store` is the chat table). */
  function Chat(companyId: string, query: string, sessionId: Uuid, docs: seq<Document>,
                store: seq<ChatMessage>, modelOutput: string, userAt: int, assistantAt: int): (t: ChatTurn)
    requires RetrievedFor(docs, companyId)
    ensures TurnFacts(t, companyId, query, sessionId, docs, ChatHistory.SessionWindow(store, sessionId),
                      modelOutput, userAt, assistantAt)
  {
    Turn(companyId, query, sessionId, docs, ChatHistory.SessionWindow(store, sessionId), modelOutput, userAt, assistantAt)
  }

  /** The chat turn with the history restricted to the requesting
      company's rows of the session. */
  function ChatScoped(companyId: string, query: string, sessionId: Uuid, docs: seq<Document>,
                      store: seq<ChatMessage>, modelOutput: string, userAt: int, assistantAt: int): (t: ChatTurn)
    requires RetrievedFor(docs, companyId)
    ensures TurnFacts(t, companyId, query, sessionId, docs, ChatHistory.TenantWindow(store, sessionId, companyId),
                      modelOutput, userAt, assistantAt)
    ensures forall m :: m in ChatHistory.TenantWindow(store, sessionId, companyId) ==>
              m in store && m.sessionId == sessionId && m.companyId == companyId
  {
    ChatHistory.TenantWindowIsolated(store, sessionId, companyId);
    Turn(companyId, query, sessionId, docs, ChatHistory.TenantWindow(store, sessionId, companyId),
         modelOutput, userAt, assistantAt)
  }

  /** With nothing retrieved, the turn neither reads the chat table nor
      depends on the model's reply: it is the same for any table and any
      reply, and it reports a refusal the detector agrees with. */
  lemma ChatShortCircuitIgnoresStoreAndModel(companyId: string, query: string, sessionId: Uuid,
                                             store1: seq<ChatMessage>, store2: seq<ChatMessage>,
                                             out1: string, out2: string, u1: int, a1: int, u2: int, a2: int)
    ensures Chat(companyId, query, sessionId, [], store1, out1, u1, a1)
         == Chat(companyId, query, sessionId, [], store2, out2, u2, a2)
    ensures Chat(companyId, query, sessionId, [], store1, out1, u1, a1).response
         == RagResponse(RefusalSentence, 0.0, [], true)
  {
  }

  /** The system prompt of a turn as written carries the refusal sentence,
      the retrieved context and the rendered session window; every row of
      that window is a stored row of the session, of whichever company. */
  lemma ChatPromptGrounded(companyId: string, query: string, sessionId: Uuid, docs: seq<Document>,
                           store: seq<ChatMessage>, modelOutput: string, userAt: int, assistantAt: int)
    requires RetrievedFor(docs, companyId) && docs != []
    ensures var w := ChatHistory.SessionWindow(store, sessionId);
            var t := Chat(companyId, query, sessionId, docs, store, modelOutput, userAt, assistantAt);
            && t.modelCall.Some?
            && Text.Contains(t.modelCall.value.system, RefusalSentence)
            && Text.Contains(t.modelCall.value.system, Context(docs))
            && Text.Contains(t.modelCall.value.system, ChatHistory.Render(w))
            && (forall m :: m in w ==> m in store && m.sessionId == sessionId)
  {
    var w := ChatHistory.SessionWindow(store, sessionId);
    PromptCarriesParts(companyId, Context(docs), ChatHistory.Render(w));
    ChatHistory.SessionWindowRows(store, sessionId);
  }

  /** The scoped turn's prompt carries the refusal sentence, the context
      and a history drawn only from the requesting company's rows of the
      session. */
  lemma ChatScopedIsolated(companyId: string, query: string, sessionId: Uuid, docs: seq<Document>,
                           store: seq<ChatMessage>, modelOutput: string, userAt: int, assistantAt: int)
    requires RetrievedFor(docs, companyId) && docs != []
    ensures var w := ChatHistory.TenantWindow(store, sessionId, companyId);
            var t := ChatScoped(companyId, query, sessionId, docs, store, modelOutput, userAt, assistantAt);
            && t.modelCall.Some?
            && Text.Contains(t.modelCall.value.system, RefusalSentence)
            && Text.Contains(t.modelCall.value.system, Context(docs))
            && Text.Contains(t.modelCall.value.system, ChatHistory.Render(w))
            && (forall m :: m in w ==> m in store && m.sessionId == sessionId && m.companyId == companyId)
  {
    var w := ChatHistory.TenantWindow(store, sessionId, companyId);
    PromptCarriesParts(companyId, Context(docs), ChatHistory.Render(w));
  }

  /** Documents an "acme-corp" retrieval might return. */
  const AcmeDocs: seq<Document> :=
    [Document("Launches are announced in March.", Metadata(Some("acme-corp"), Some("handbook.txt"), Some(0.9)))]

  /** As written, a session id reused by another company leaks that
      company's message into the prompt: "acme-corp" chats in session 7
      after "globex" wrote there, and the prompt shows globex's line. */
  lemma ChatLeaksOtherTenant(query: string, modelOutput: string, userAt: int, assistantAt: int)
    ensures var t := Chat("acme-corp", query, 7, AcmeDocs, [ChatHistory.ForeignRow], modelOutput, userAt, assistantAt);
            && t.modelCall.Some?
            && Text.Contains(t.modelCall.value.system, ChatHistory.Line(ChatHistory.ForeignRow))
            && Text.Contains(t.modelCall.value.system, ChatHistory.ForeignRow.content)
  {
    var row := ChatHistory.ForeignRow;
    var t := Chat("acme-corp", query, 7, AcmeDocs, [row], modelOutput, userAt, assistantAt);
    ChatPromptGrounded("acme-corp", query, 7, AcmeDocs, [row], modelOutput, userAt, assistantAt);
    ChatHistory.SessionWindowCrossesTenants();
    ChatHistory.RenderSingle(row);
    Text.ContainsTransitive(t.modelCall.value.system, ChatHistory.Render([row]), row.content);
  }

  /** On the same input the scoped turn shows no earlier message at all. */
  lemma ChatScopedHidesOtherTenant(query: string, modelOutput: string, userAt: int, assistantAt: int)
    ensures ChatScoped("acme-corp", query, 7, AcmeDocs, [ChatHistory.ForeignRow], modelOutput, userAt, assistantAt).modelCall
         == Some(ModelCall(Prompt("acme-corp", Context(AcmeDocs), ChatHistory.NoHistory), query))
  {
    ChatHistory.TenantWindowEmpty([ChatHistory.ForeignRow], 7, "acme-corp");
    assert ChatHistory.Render([]) == ChatHistory.NoHistory;
  }
}

=== FILE: text.dfy ===
/** String and sequence helpers standing in for the Python built-ins the
    modelled code relies on: `sep.join`, `in` on strings, `str.lower`,
    `str.strip` and `list(set(...))`. Strings are sequences of code points. */
module Text {

  // ---------------------------------------------------------------------
  // sep.join(xs)

  /** Where the `i`-th piece starts inside `Join(xs, sep)`. */
  function Offset(xs: seq<string>, sep: string, i: nat): nat
    requires i <= |xs|
  {
    if i == 0 then 0 else |xs[0]| + |sep| + Offset(xs[1..], sep, i - 1)
  }

  /** Consecutive offsets are one piece and one separator apart. */
  lemma {:induction false} OffsetStep(xs: seq<string>, sep: string, i: nat)
    requires i < |xs|
    ensures Offset(xs, sep, i + 1) == Offset(xs, sep, i) + |xs[i]| + |sep|
    decreases i
  {
    if i > 0 {
      OffsetStep(xs[1..], sep, i - 1);
    }
  }

  /** Python's `sep.join(xs)`. */
  function Join(xs: seq<string>, sep: string): (r: string)
    ensures xs == [] ==> r == ""
    ensures |xs| == 1 ==> r == xs[0]
  {
    if |xs| == 0 then ""
    else if |xs| == 1 then xs[0]
    else xs[0] + sep + Join(xs[1..], sep)
  }

  /** The joined string is as long as all pieces plus the separators. */
  lemma {:induction false} JoinLength(xs: seq<string>, sep: string)
    requires |xs| > 0
    ensures |Join(xs, sep)| == Offset(xs, sep, |xs| - 1) + |xs[|xs| - 1]|
  {
    if |xs| > 1 {
      var rest := xs[1..];
      JoinLength(rest, sep);
      assert Join(xs, sep) == xs[0] + sep + Join(rest, sep);
      assert rest[|rest| - 1] == xs[|xs| - 1];
      assert Offset(xs, sep, |xs| - 1) == |xs[0]| + |sep| + Offset(rest, sep, |rest| - 1);
    }
  }

  /** The `i`-th piece sits at its offset. */
  lemma {:induction false} JoinPiece(xs: seq<string>, sep: string, i: nat)
    requires i < |xs|
    ensures Offset(xs, sep, i) + |xs[i]| <= |Join(xs, sep)|
    ensures Join(xs, sep)[Offset(xs, sep, i)..Offset(xs, sep, i) + |xs[i]|] == xs[i]
    decreases i
  {
    if |xs| > 1 {
      var head := |xs[0]| + |sep|;
      assert Join(xs, sep) == xs[0] + sep + Join(xs[1..], sep);
      if i > 0 {
        JoinPiece(xs[1..], sep, i - 1);
        assert Join(xs, sep)[head..] == Join(xs[1..], sep);
      }
    }
  }

  /** The separator sits between the `i`-th and the next piece. */
  lemma {:induction false} JoinSeparator(xs: seq<string>, sep: string, i: nat)
    requires i + 1 < |xs|
    ensures Offset(xs, sep, i + 1) == Offset(xs, sep, i) + |xs[i]| + |sep|
    ensures Offset(xs, sep, i + 1) <= |Join(xs, sep)|
    ensures Join(xs, sep)[Offset(xs, sep, i) + |xs[i]|..Offset(xs, sep, i + 1)] == sep
    decreases i
  {
    OffsetStep(xs, sep, i);
    JoinPiece(xs, sep, i + 1);
    var head := |xs[0]| + |sep|;
    assert Join(xs, sep) == xs[0] + sep + Join(xs[1..], sep);
    if i > 0 {
      JoinSeparator(xs[1..], sep, i - 1);
      assert Join(xs, sep)[head..] == Join(xs[1..], sep);
    }
  }

  /** Every piece occurs in the joined string. */
  lemma JoinContains(xs: seq<string>, sep: string)
    ensures forall i :: 0 <= i < |xs| ==> Contains(Join(xs, sep), xs[i])
  {
    forall i | 0 <= i < |xs|
      ensures Contains(Join(xs, sep), xs[i])
    {
      JoinPiece(xs, sep, i);
      assert OccursAt(Join(xs, sep), xs[i], Offset(xs, sep, i));
    }
  }

  /** Joining pieces that are all non-empty gives the empty string only
      when there are no pieces. */
  lemma {:induction false} JoinEmptyIff(xs: seq<string>, sep: string)
    requires forall i :: 0 <= i < |xs| ==> xs[i] != ""
    ensures Join(xs, sep) == "" <==> xs == []
  {
    if |xs| > 1 {
      assert |Join(xs, sep)| >= |xs[0]| > 0;
    }
  }

  // ---------------------------------------------------------------------
  // `p in s` on strings

  /** `p` occurs in `s` starting at index `i`. */
  predicate OccursAt(s: string, p: string, i: int)
  {
    0 <= i && i + |p| <= |s| && s[i..i + |p|] == p
  }

  /** Python's substring test `p in s`. */
  function Contains(s: string, p: string): (b: bool)
    ensures b <==> exists i :: OccursAt(s, p, i)
    decreases |s|
  {
    if |p| > |s| then false
    else if s[..|p|] == p then assert OccursAt(s, p, 0); true
    else
      var b := Contains(s[1..], p);
      ContainsShift(s, p);
      b
  }

  /** An occurrence in `s[1..]` is an occurrence in `s` one place later, and
      every occurrence in `s` other than at 0 arises that way. */
  lemma ContainsShift(s: string, p: string)
    requires |s| > 0
    ensures (exists i :: OccursAt(s[1..], p, i)) <==> (exists i :: i != 0 && OccursAt(s, p, i))
  {
    if exists i :: OccursAt(s[1..], p, i) {
      var i :| OccursAt(s[1..], p, i);
      assert s[i + 1..i + 1 + |p|] == s[1..][i..i + |p|];
      assert OccursAt(s, p, i + 1);
    }
    if exists i :: i != 0 && OccursAt(s, p, i) {
      var i :| i != 0 && OccursAt(s, p, i);
      assert s[1..][i - 1..i - 1 + |p|] == s[i..i + |p|];
      assert OccursAt(s[1..], p, i - 1);
    }
  }

  /** A string occurs in itself. */
  lemma ContainsItself(s: string)
    ensures Contains(s, s)
  {
    assert OccursAt(s, s, 0);
  }

  /** Surrounding text never hides an occurrence. */
  lemma ContainsExtend(s: string, p: string, before: string, after: string)
    requires Contains(s, p)
    ensures Contains(before + s + after, p)
  {
    var i :| OccursAt(s, p, i);
    var t := before + s + after;
    assert t[|before| + i..|before| + i + |p|] == s[i..i + |p|];
    assert OccursAt(t, p, |before| + i);
  }

  /** `x` occurs in `a + x + b`. */
  lemma ContainsMiddle(a: string, x: string, b: string)
    ensures Contains(a + x + b, x)
  {
    ContainsItself(x);
    ContainsExtend(x, x, a, b);
  }

  /** An occurrence of an occurrence is an occurrence. */
  lemma ContainsTransitive(s: string, p: string, q: string)
    requires Contains(s, p) && Contains(p, q)
    ensures Contains(s, q)
  {
    var i :| OccursAt(s, p, i);
    var j :| OccursAt(p, q, j);
    var window := s[i..i + |p|];
    forall k | 0 <= k < |q|
      ensures s[i + j + k] == q[k]
    {
      assert s[i + j + k] == window[j + k];
      assert q[k] == p[j..j + |q|][k];
    }
    assert s[i + j..i + j + |q|] == q;
    assert OccursAt(s, q, i + j);
  }

  // ---------------------------------------------------------------------
  // str.lower()

  /** Lower-casing of one code point: ASCII capitals map to small letters,
      every other code point is left alone. */
  function LowerChar(c: char): char
  {
    if 'A' <= c <= 'Z' then (c as int + 32) as char else c
  }

  /** An ASCII capital letter. */
  predicate IsUpper(c: char) { 'A' <= c <= 'Z' }

  /** `str.lower()` restricted to ASCII letters. */
  function Lower(s: string): (r: string)
    ensures |r| == |s|
    ensures forall i :: 0 <= i < |s| ==> r[i] == LowerChar(s[i])
  {
    if s == [] then [] else [LowerChar(s[0])] + Lower(s[1..])
  }

  /** Lower-casing works piece by piece. */
  lemma LowerConcat(a: string, b: string)
    ensures Lower(a + b) == Lower(a) + Lower(b)
  {
    assert forall i :: 0 <= i < |a + b| ==> Lower(a + b)[i] == (Lower(a) + Lower(b))[i];
  }

  /** A string without capitals is its own lower-case form. */
  lemma LowerKeeps(s: string)
    requires forall i :: 0 <= i < |s| ==> !IsUpper(s[i])
    ensures Lower(s) == s
  {
  }

  /** Lower-casing leaves no ASCII capital behind and changes nothing else
      but capitals; so applying it twice changes nothing more. */
  lemma LowerNormalises(s: string)
    ensures forall i :: 0 <= i < |s| ==> !IsUpper(Lower(s)[i])
    ensures forall i :: 0 <= i < |s| ==> !IsUpper(s[i]) ==> Lower(s)[i] == s[i]
    ensures Lower(Lower(s)) == Lower(s)
  {
  }

  // ---------------------------------------------------------------------
  // str.strip()

  /** The code points Python's `str.isspace` accepts, which `str.strip()`
      removes from both ends. */
  predicate IsSpace(c: char)
  {
    var n := c as int;
    || (9 <= n <= 13) || (28 <= n <= 32) || n == 0x85 || n == 0xA0
    || n == 0x1680 || (0x2000 <= n <= 0x200A) || n == 0x2028 || n == 0x2029
    || n == 0x202F || n == 0x205F || n == 0x3000
  }

  predicate AllSpace(s: string)
  {
    forall i :: 0 <= i < |s| ==> IsSpace(s[i])
  }

  /** Number of whitespace code points at the front of `s`. */
  function LeadingSpaces(s: string): (n: nat)
    ensures n <= |s| && AllSpace(s[..n])
    ensures n == |s| || !IsSpace(s[n])
  {
    if s == [] || !IsSpace(s[0]) then 0
    else
      var n := LeadingSpaces(s[1..]);
      assert s[..n + 1] == [s[0]] + s[1..][..n];
      n + 1
  }

  /** Number of whitespace code points at the back of `s`. */
  function TrailingSpaces(s: string): (n: nat)
    ensures n <= |s| && AllSpace(s[|s| - n..])
    ensures n == |s| || !IsSpace(s[|s| - n - 1])
  {
    if s == [] || !IsSpace(s[|s| - 1]) then 0
    else
      var init := s[..|s| - 1];
      var n := TrailingSpaces(init);
      var tail := s[|s| - (n + 1)..];
      assert forall x :: 0 <= x < n ==> tail[x] == init[|init| - n..][x];
      assert AllSpace(tail);
      n + 1
  }

  /** `s` is `r` with only whitespace added in front (`a` code points) and
      behind. */
  predicate PaddedAt(s: string, r: string, a: int)
  {
    0 <= a && a + |r| <= |s| && s[a..a + |r|] == r
    && AllSpace(s[..a]) && AllSpace(s[a + |r|..])
  }

  /** Python's `str.strip()`: drops the whitespace at both ends and nothing
      else. */
  function Strip(s: string): (r: string)
    ensures exists a :: PaddedAt(s, r, a)
    ensures r == [] || (!IsSpace(r[0]) && !IsSpace(r[|r| - 1]))
  {
    var n := LeadingSpaces(s);
    if n == |s| then
      assert PaddedAt(s, [], n);
      []
    else
      var m := TrailingSpaces(s);
      var r := s[n..|s| - m];
      assert PaddedAt(s, r, n);
      r
  }

  // ---------------------------------------------------------------------
  // list(set(xs))

  predicate NoDuplicates(s: seq<string>)
  {
    forall i, j :: 0 <= i < j < |s| ==> s[i] != s[j]
  }

  /** The distinct elements of `s`, each once, in order of first appearance.
      Python's `list(set(xs))` promises the same elements in an unspecified
      order; this model fixes one. */
  function Dedup(s: seq<string>): (r: seq<string>)
    ensures NoDuplicates(r)
    ensures forall x :: x in r <==> x in s
    ensures |r| <= |s|
  {
    if s == [] then []
    else
      var rest := Dedup(s[..|s| - 1]);
      var last := s[|s| - 1];
      assert forall x :: x in s <==> x in s[..|s| - 1] || x == last;
      if last in rest then rest else rest + [last]
  }
}

=== FILE: workflow_schemas.dfy ===
/** Records of the lead workflow: extracted lead fields with their email
    check, the intent classification, the stored lead and the response. */
module WorkflowSchemas {
  import opened Wrappers
  import opened Ids
  import Text

  /** A JSON value as far as the lead fields need one; arrays, objects and
      booleans are `JOther`. */
  datatype Json = JNull | JString(s: string) | JNumber(x: real) | JOther

  type JsonObject = map<string, Json>

  // ---------------------------------------------------------------------
  // LeadFields

  /** Fields extracted from a lead; every one is optional. */
  datatype LeadFields = LeadFields(
    name: Option<string>,
    email: Option<string>,
    company: Option<string>,
    phone: Option<string>,
    budget: Option<real>,
    messageSummary: Option<string>)

  /** The value every field takes when its key is not given. */
  const NoLeadFields: LeadFields := LeadFields(None, None, None, None, None, None)

  /** What the email check lets through: nothing, the empty string, or a
      string with an '@' in it. */
  predicate EmailAccepted(v: Option<string>)
  {
    v.None? || v.value == "" || Text.Contains(v.value, "@")
  }

  /** The email field validator: a non-empty value without '@' is rejected,
      everything else passes unchanged. */
  function ValidateEmail(v: Option<string>): (r: Result<Option<string>, string>)
    ensures r.Ok? <==> EmailAccepted(v)
    ensures r.Ok? ==> r.value == v
    ensures v.Some? && v.value != "" && !Text.Contains(v.value, "@") ==> r == Err("Invalid email")
  {
    if v.Some? && v.value != "" && !Text.Contains(v.value, "@") then Err("Invalid email") else Ok(v)
  }

  /** The six keys `model_dump` writes. */
  const FieldKeys: seq<string> := ["name", "email", "company", "phone", "budget", "message_summary"]

  function StrJson(v: Option<string>): Json
  {
    match v
    case None => JNull
    case Some(s) => JString(s)
  }

  function NumJson(v: Option<real>): Json
  {
    match v
    case None => JNull
    case Some(x) => JNumber(x)
  }

  /** `model_dump()`: one entry per field, null for an absent value. */
  function Dump(f: LeadFields): (d: JsonObject)
    ensures d.Keys == set k | k in FieldKeys
  {
    map["name" := StrJson(f.name), "email" := StrJson(f.email), "company" := StrJson(f.company),
        "phone" := StrJson(f.phone), "budget" := NumJson(f.budget),
        "message_summary" := StrJson(f.messageSummary)]
  }

  /** Reads one optional string field: an absent key or null is `None`. */
  function StrField(d: JsonObject, key: string): Result<Option<string>, string>
  {
    if key !in d then Ok(None)
    else match d[key]
      case JNull => Ok(None)
      case JString(s) => Ok(Some(s))
      case _ => Err(key)
  }

  /** Reads one optional number field: an absent key or null is `None`. */
  function NumField(d: JsonObject, key: string): Result<Option<real>, string>
  {
    if key !in d then Ok(None)
    else match d[key]
      case JNull => Ok(None)
      case JNumber(x) => Ok(Some(x))
      case _ => Err(key)
  }

  /** Key `key` is absent, null or a string: the kinds a text field takes. */
  predicate StrKindOk(d: JsonObject, key: string)
  {
    key !in d || d[key].JNull? || d[key].JString?
  }

  /** Key `key` is absent, null or a number: the kinds `budget` takes. */
  predicate NumKindOk(d: JsonObject, key: string)
  {
    key !in d || d[key].JNull? || d[key].JNumber?
  }

  /** Every field key holds a value of its field's kind. */
  predicate KindsOk(d: JsonObject)
  {
    && StrKindOk(d, "name") && StrKindOk(d, "email") && StrKindOk(d, "company")
    && StrKindOk(d, "phone") && NumKindOk(d, "budget") && StrKindOk(d, "message_summary")
  }

  /** `v` is the text field's value read from key `key`: the string when
      the key holds one, `None` when it is absent or null. */
  predicate ReadsStr(d: JsonObject, key: string, v: Option<string>)
  {
    if key in d && d[key].JString? then v == Some(d[key].s) else v.None?
  }

  /** `v` is the number field's value read from key `key`. */
  predicate ReadsNum(d: JsonObject, key: string, v: Option<real>)
  {
    if key in d && d[key].JNumber? then v == Some(d[key].x) else v.None?
  }

  /** `LeadFields(**d)`: each field read from its key (extra keys ignored),
      then the email validator run on the email. It fails when a field key
      holds a value of the wrong kind, or when the email is rejected. */
  function Load(d: JsonObject): (r: Result<LeadFields, string>)
    ensures !KindsOk(d) ==> r.Err?
    ensures KindsOk(d) ==> forall v :: ReadsStr(d, "email", v) ==> (r.Ok? <==> EmailAccepted(v))
    ensures r.Ok? ==>
              && ReadsStr(d, "name", r.value.name) && ReadsStr(d, "email", r.value.email)
              && ReadsStr(d, "company", r.value.company) && ReadsStr(d, "phone", r.value.phone)
              && ReadsNum(d, "budget", r.value.budget) && ReadsStr(d, "message_summary", r.value.messageSummary)
    ensures r.Ok? ==> EmailAccepted(r.value.email)
  {
    var name := StrField(d, "name");
    var email := StrField(d, "email");
    var company := StrField(d, "company");
    var phone := StrField(d, "phone");
    var budget := NumField(d, "budget");
    var summary := StrField(d, "message_summary");
    if name.Err? then Err(name.error)
    else if email.Err? then Err(email.error)
    else if company.Err? then Err(company.error)
    else if phone.Err? then Err(phone.error)
    else if budget.Err? then Err(budget.error)
    else if summary.Err? then Err(summary.error)
    else
      var checked := ValidateEmail(email.value);
      if checked.Err? then Err(checked.error)
      else Ok(LeadFields(name.value, checked.value, company.value, phone.value, budget.value, summary.value))
  }

  /** Dumping fields and loading the dump gives back the same fields,
      provided the email is one the validator accepts; and a dump the
      validator rejects does not load. */
  lemma DumpLoadRoundTrip(f: LeadFields)
    ensures EmailAccepted(f.email) ==> Load(Dump(f)) == Ok(f)
    ensures !EmailAccepted(f.email) ==> Load(Dump(f)).Err?
  {
  }

  /** Every field defaults to `None`: an object without any field key
      (whatever other keys it has) loads as all-absent fields, and a single
      missing key reads as `None` whatever the other keys hold. */
  lemma FieldsDefaultToNone(d: JsonObject)
    ensures ("name" !in d && "email" !in d && "company" !in d && "phone" !in d
             && "budget" !in d && "message_summary" !in d) ==> Load(d) == Ok(NoLeadFields)
    ensures Load(d).Ok? && "phone" !in d ==> Load(d).value.phone.None?
    ensures Load(d).Ok? && "budget" !in d ==> Load(d).value.budget.None?
  {
  }

  // ---------------------------------------------------------------------
  // IntentClassification

  /** The four intents a lead can be routed to. */
  datatype Intent = Sales | Support | Partnership | Unknown

  function IntentLabel(i: Intent): string
  {
    match i
    case Sales => "sales"
    case Support => "support"
    case Partnership => "partnership"
    case Unknown => "unknown"
  }

  /** The literal-type check: only the four labels are accepted. */
  function ParseIntent(s: string): (r: Option<Intent>)
    ensures r.Some? ==> IntentLabel(r.value) == s
  {
    if s == "sales" then Some(Sales)
    else if s == "support" then Some(Support)
    else if s == "partnership" then Some(Partnership)
    else if s == "unknown" then Some(Unknown)
    else None
  }

  /** Every intent reads back from its label, and nothing but the four
      labels reads as an intent. */
  lemma IntentRoundTrip(i: Intent, s: string)
    ensures ParseIntent(IntentLabel(i)) == Some(i)
    ensures ParseIntent(s).Some? <==> s in ["sales", "support", "partnership", "unknown"]
  {
  }

  datatype IntentClassification = IntentClassification(intent: Intent, confidence: real)

  // ---------------------------------------------------------------------
  // WorkflowLead and WorkflowResponse

  /** The three statuses a stored lead may carry. */
  datatype LeadStatus = Processed | Fallback | Failed

  function StatusLabel(s: LeadStatus): string
  {
    match s
    case Processed => "processed"
    case Fallback => "fallback"
    case Failed => "failed"
  }

  function ParseStatus(s: string): (r: Option<LeadStatus>)
    ensures r.Some? ==> StatusLabel(r.value) == s
  {
    if s == "processed" then Some(Processed)
    else if s == "fallback" then Some(Fallback)
    else if s == "failed" then Some(Failed)
    else None
  }

  /** Every status reads back from its label, and only the three labels
      read as a status. */
  lemma StatusRoundTrip(t: LeadStatus, s: string)
    ensures ParseStatus(StatusLabel(t)) == Some(t)
    ensures ParseStatus(s).Some? <==> s in ["processed", "fallback", "failed"]
  {
  }

  /** The raw lead payload, represented by its JSON serialisation. */
  datatype RawLead = RawLead(serialised: string)

  /** One row of the lead table. */
  datatype WorkflowLead = WorkflowLead(
    id: Uuid,
    rawInput: RawLead,
    intent: Intent,
    confidence: real,
    extractedFields: JsonObject,
    aiResponse: Option<string>,
    status: LeadStatus,
    requestId: string,
    createdAt: int)

  /** Builds a lead row the way the keyword constructor does: an omitted
      keyword (outer `None`) takes its default, `ai_response` null and
      status processed. */
  function NewWorkflowLead(id: Uuid, rawInput: RawLead, intent: Intent, confidence: real,
                           extractedFields: JsonObject, requestId: string, createdAt: int,
                           aiResponse: Option<Option<string>>, status: Option<LeadStatus>): (l: WorkflowLead)
    ensures aiResponse.None? ==> l.aiResponse.None?
    ensures status.None? ==> l.status == Processed
    ensures aiResponse.Some? ==> l.aiResponse == aiResponse.value
    ensures status.Some? ==> l.status == status.value
  {
    WorkflowLead(id, rawInput, intent, confidence, extractedFields, aiResponse.GetOr(None),
                 status.GetOr(Processed), requestId, createdAt)
  }

  /** The trace returned with a processed lead. */
  datatype ExecutionTrace = ExecutionTrace(intentConfidence: real, requestId: string)

  datatype WorkflowResponse = WorkflowResponse(
    leadId: Uuid,
    intent: string,
    confidence: real,
    extractedFields: LeadFields,
    aiResponse: string,
    status: string,
    executionTrace: ExecutionTrace)
}

=== FILE: workflow_service.dfy ===
/** The lead workflow: classify the lead's intent (forcing "unknown" below
    the confidence threshold), extract its fields (falling back to a regex
    search for the email), obtain a reply, store the lead and answer. The
    two structured model calls, the reply call and the database are inputs;
    any failure among them rolls the session back and surfaces as a
    database error. */
module WorkflowService {
  import opened Wrappers
  import opened Ids
  import opened WorkflowSchemas
  import opened AppErrors
  import EmailPattern
  import Text

  /** Below this classifier confidence the intent is not trusted. The
      source writes 0.7, which denotes the binary64 double nearest to 0.7,
      that is 3152519739159347 / 2^52; confidences are likewise the exact
      values of the doubles the classifier's reply parses to, so `<` on
      these reals decides as `<` on the doubles does. */
  const IntentThreshold: real := 0.6999999999999999555910790149937383830547332763671875

  // ---------------------------------------------------------------------
  // Intent threshold

  /** Forces the intent to unknown when the classifier is not confident
      enough; the confidence itself is kept as reported. */
  function ApplyThreshold(c: IntentClassification): (r: IntentClassification)
    ensures r.confidence == c.confidence
    ensures c.confidence < IntentThreshold ==> r.intent == Unknown
    ensures c.confidence >= IntentThreshold ==> r.intent == c.intent
  {
    if c.confidence < IntentThreshold then c.(intent := Unknown) else c
  }

  /** A confidence parsed from "0.7" is the threshold double itself, and
      it keeps the label; anything at least 0.7 keeps it too. */
  lemma SevenTenthsKeepsLabel(i: Intent, x: real)
    requires x >= 0.7
    ensures IntentThreshold == 3152519739159347.0 / 4503599627370496.0
    ensures ApplyThreshold(IntentClassification(i, IntentThreshold)).intent == i
    ensures ApplyThreshold(IntentClassification(i, x)).intent == i
  {
  }

  /** The structured classifier call's output after parsing: the label must
      be one of the four intents. */
  function ParseClassification(name: string, confidence: real): (r: Result<IntentClassification, string>)
    ensures r.Ok? <==> ParseIntent(name).Some?
    ensures r.Ok? ==> IntentLabel(r.value.intent) == name && r.value.confidence == confidence
  {
    match ParseIntent(name)
    case None => Err("intent")
    case Some(i) => Ok(IntentClassification(i, confidence))
  }

  // ---------------------------------------------------------------------
  // Email fallback

  /** Python truthiness fails for `None` and for the empty string. */
  predicate Falsy(v: Option<string>)
  {
    v.None? || v.value == ""
  }

  /** The regex fallback: when the extracted email is falsy, the leftmost
      match of the email pattern in the serialised lead becomes the email;
      without a match, or with a truthy email, the fields stay as they were.
      No other field is ever touched. */
  function FallbackEmail(fields: LeadFields, serialised: string): (r: LeadFields)
    requires EmailPattern.IsAscii(serialised)
    ensures r.(email := fields.email) == fields
    ensures !Falsy(fields.email) ==> r == fields
    ensures Falsy(fields.email) && EmailPattern.Search(serialised).None? ==> r == fields
    ensures Falsy(fields.email) && EmailPattern.Search(serialised).Some? ==>
              var m := EmailPattern.Search(serialised).value;
              m.end <= |serialised| && r.email == Some(serialised[m.start..m.end])
  {
    if !Falsy(fields.email) then fields
    else match EmailPattern.Search(serialised)
      case None => fields
      case Some(m) =>
        EmailPattern.MatchShape(serialised, m.start, m.end);
        fields.(email := Some(serialised[m.start..m.end]))
  }

  /** Whatever the fallback puts in the email field is the match
      `re.search` reports: a piece of the serialised lead with exactly one
      '@', non-empty on both sides of it, bordered by characters outside
      the class; it therefore passes the email validator. */
  lemma FallbackEmailShape(fields: LeadFields, serialised: string)
    requires EmailPattern.IsAscii(serialised)
    requires FallbackEmail(fields, serialised).email != fields.email
    ensures var m := EmailPattern.Search(serialised).value;
            && FallbackEmail(fields, serialised).email == Some(serialised[m.start..m.end])
            && EmailPattern.LeftmostLongest(serialised, m.start, m.end)
            && (exists j :: EmailPattern.SplitsAt(serialised[m.start..m.end], j))
            && (m.start == 0 || !EmailPattern.InClass(serialised[m.start - 1]))
            && (m.end == |serialised| || !EmailPattern.InClass(serialised[m.end]))
    ensures EmailAccepted(FallbackEmail(fields, serialised).email)
  {
    var m := EmailPattern.Search(serialised).value;
    EmailPattern.MatchShape(serialised, m.start, m.end);
    var t := serialised[m.start..m.end];
    var j :| EmailPattern.SplitsAt(t, j);
    assert Text.OccursAt(t, "@", j) by {
      assert t[j..j + 1] == [t[j]];
    }
  }

  /** The fallback never turns an acceptable email into an unacceptable
      one. */
  lemma FallbackKeepsEmailAccepted(fields: LeadFields, serialised: string)
    requires EmailPattern.IsAscii(serialised)
    requires EmailAccepted(fields.email)
    ensures EmailAccepted(FallbackEmail(fields, serialised).email)
  {
    if FallbackEmail(fields, serialised).email != fields.email {
      FallbackEmailShape(fields, serialised);
    }
  }

  // ---------------------------------------------------------------------
  // process_lead

  /** The raw classifier output: a label and a confidence. */
  datatype RawClassification = RawClassification(name: string, confidence: real)

  /** What the collaborators do during one run: each model call returns its
      value or raises (`Err` with the exception text), the commit and the
      refresh pass or raise, and the database assigns the lead's id and
      creation time. */
  datatype LeadEffects = LeadEffects(
    classification: Result<RawClassification, string>,
    extraction: Result<JsonObject, string>,
    reply: Result<Option<string>, string>,
    commit: Outcome,
    refresh: Outcome,
    leadId: Uuid,
    createdAt: int)

  /** The outcome of one run: the response or the raised error, and the
      leads that ended up committed. */
  datatype LeadRun = LeadRun(result: Result<WorkflowResponse, AppError>, committed: seq<WorkflowLead>)

  /** The one error every failure is reported as. */
  const LeadFailure: AppError := AppError(Database, "Failed to process lead")

  /** The lead row a run stores once every model call has succeeded. */
  function LeadRecord(raw: RawLead, requestId: string, fx: LeadEffects, cls: IntentClassification,
                      fields: LeadFields, reply: Option<string>): (l: WorkflowLead)
    ensures l.status == Processed && l.requestId == requestId && l.rawInput == raw
    ensures l.intent == ApplyThreshold(cls).intent && l.confidence == cls.confidence
    ensures l.extractedFields == Dump(fields) && l.aiResponse == reply && l.id == fx.leadId
  {
    var decided := ApplyThreshold(cls);
    NewWorkflowLead(fx.leadId, raw, decided.intent, decided.confidence, Dump(fields), requestId,
                    fx.createdAt, Some(reply), Some(Processed))
  }

  /** The response built from the stored lead. */
  function LeadResponse(lead: WorkflowLead, fields: LeadFields): (r: WorkflowResponse)
    ensures r.leadId == lead.id && r.extractedFields == fields
    ensures ParseIntent(r.intent) == Some(lead.intent) && ParseStatus(r.status) == Some(lead.status)
    ensures r.confidence == lead.confidence == r.executionTrace.intentConfidence
    ensures r.aiResponse == lead.aiResponse.GetOr("") && r.executionTrace.requestId == lead.requestId
  {
    IntentRoundTrip(lead.intent, "");
    StatusRoundTrip(lead.status, "");
    WorkflowResponse(lead.id, IntentLabel(lead.intent), lead.confidence, fields,
                     lead.aiResponse.GetOr(""), StatusLabel(lead.status),
                     ExecutionTrace(lead.confidence, lead.requestId))
  }

  /** `process_lead` with request id `requestId` (a fresh UUID string). */
  function ProcessLead(raw: RawLead, requestId: string, fx: LeadEffects): (run: LeadRun)
    requires EmailPattern.IsAscii(raw.serialised)
    ensures run.result.Err? ==> run.result.error == LeadFailure
    ensures fx.commit.Raise? ==> run.committed == []
    ensures |run.committed| <= 1
    ensures run.committed != [] <==>
              && fx.classification.Ok? && ParseIntent(fx.classification.value.name).Some?
              && fx.extraction.Ok? && Load(fx.extraction.value).Ok?
              && fx.reply.Ok? && fx.commit.Pass?
    ensures run.result.Err? && run.committed != [] ==> fx.commit.Pass? && fx.refresh.Raise?
    ensures run.result.Ok? ==> fx.commit.Pass? && fx.refresh.Pass? && |run.committed| == 1
    ensures run.result.Ok? ==>
              var lead := run.committed[0];
              var resp := run.result.value;
              && lead.status == Processed && resp.status == "processed"
              && lead.requestId == requestId && resp.executionTrace.requestId == requestId
              && resp.leadId == lead.id == fx.leadId
              && resp.intent == IntentLabel(lead.intent)
              && resp.confidence == lead.confidence == resp.executionTrace.intentConfidence
              && resp.aiResponse == lead.aiResponse.GetOr("")
              && lead.extractedFields == Dump(resp.extractedFields)
  {
    var failed := LeadRun(Err(LeadFailure), []);
    if fx.classification.Err? then failed
    else
      var parsed := ParseClassification(fx.classification.value.name, fx.classification.value.confidence);
      if parsed.Err? then failed
      else if fx.extraction.Err? then failed
      else
        var loaded := Load(fx.extraction.value);
        if loaded.Err? then failed
        else
          var fields := FallbackEmail(loaded.value, raw.serialised);
          if fx.reply.Err? then failed
          else
            var lead := LeadRecord(raw, requestId, fx, parsed.value, fields, fx.reply.value);
            if fx.commit.Raise? then failed
            else if fx.refresh.Raise? then LeadRun(Err(LeadFailure), [lead])
            else
              FallbackKeepsEmailAccepted(loaded.value, raw.serialised);
              DumpLoadRoundTrip(fields);
              var reread := Load(lead.extractedFields);
              if reread.Err? then LeadRun(Err(LeadFailure), [lead])
              else LeadRun(Ok(LeadResponse(lead, reread.value)), [lead])
  }

  /** A run succeeds exactly when every collaborator succeeds and both
      model outputs parse; and then the returned fields are the parsed
      extraction with the email fallback applied, the intent is the
      thresholded one, and the confidence is the classifier's own. */
  lemma ProcessLeadSucceedsIff(raw: RawLead, requestId: string, fx: LeadEffects)
    requires EmailPattern.IsAscii(raw.serialised)
    ensures ProcessLead(raw, requestId, fx).result.Ok? <==>
              && fx.classification.Ok?
              && ParseIntent(fx.classification.value.name).Some?
              && fx.extraction.Ok? && Load(fx.extraction.value).Ok?
              && fx.reply.Ok? && fx.commit.Pass? && fx.refresh.Pass?
    ensures ProcessLead(raw, requestId, fx).result.Ok? ==>
              var resp := ProcessLead(raw, requestId, fx).result.value;
              var cls := IntentClassification(ParseIntent(fx.classification.value.name).value,
                                              fx.classification.value.confidence);
              && resp.extractedFields == FallbackEmail(Load(fx.extraction.value).value, raw.serialised)
              && resp.intent == IntentLabel(ApplyThreshold(cls).intent)
              && resp.confidence == fx.classification.value.confidence
              && (fx.reply.value.None? ==> resp.aiResponse == "")
  {
    if fx.classification.Ok? && ParseIntent(fx.classification.value.name).Some?
       && fx.extraction.Ok? && Load(fx.extraction.value).Ok? && fx.reply.Ok? {
      var fields := FallbackEmail(Load(fx.extraction.value).value, raw.serialised);
      FallbackKeepsEmailAccepted(Load(fx.extraction.value).value, raw.serialised);
      DumpLoadRoundTrip(fields);
    }
  }

  /** Below the threshold the stored and returned intent is "unknown",
      whatever label the classifier gave. */
  lemma LowConfidenceIsUnknown(raw: RawLead, requestId: string, fx: LeadEffects)
    requires EmailPattern.IsAscii(raw.serialised)
    requires fx.classification.Ok? && fx.classification.value.confidence < IntentThreshold
    ensures ProcessLead(raw, requestId, fx).result.Ok? ==>
              ProcessLead(raw, requestId, fx).result.value.intent == "unknown"
              && ProcessLead(raw, requestId, fx).committed[0].intent == Unknown
  {
    ProcessLeadSucceedsIff(raw, requestId, fx);
  }

  /** Every failure reaches the caller as a 500 with code DB_ERROR, even a
      failure of the model. */
  lemma FailuresAreDatabaseErrors(raw: RawLead, requestId: string, fx: LeadEffects)
    requires EmailPattern.IsAscii(raw.serialised)
    requires ProcessLead(raw, requestId, fx).result.Err?
    ensures Envelope(ProcessLead(raw, requestId, fx).result.error)
         == ErrorEnvelope(500, "DB_ERROR", "Failed to process lead")
  {
  }
}

=== FILE: wrappers.dfy ===
/** Optional values and fallible results, used wherever the modelled code
    returns `None` or raises. */
module Wrappers {

  datatype Option<+T> = None | Some(value: T) {
    /** The wrapped value, or `default` when there is none. */
    function GetOr(default: T): T {
      match this
      case Some(v) => v
      case None => default
    }
  }

  datatype Result<+T, +E> = Ok(value: T) | Err(error: E)

  /** A step that either completes or raises; `cause` is the exception text. */
  datatype Outcome = Pass | Raise(cause: string)
}
